=== FILE: README.md ===
# Nightfall Runner — gameplay rules in Dafny

This project models the gameplay core of the Nightfall Runner side-scroller
(`assets/js/main.js`) without the canvas, audio or DOM. The player
auto-runs at x = 50 and jumps over obstacles that scroll in from the right.
Each obstacle hit costs 20 of 100 health, and the run ends at 0 health.
Distance raises the speed in steps of 0.25 up to a cap of 20.

The model is a deterministic state machine over an immutable `GameState`:

- `Game.Step` is one frame of `update()`. It is composed of the phases
  player, spawn, obstacles, collisions, progression and passes, in the
  order `update()` runs them.
- `Game.Activate` is `handleStartAndJump`: restart after a game over, start
  before the first start, jump otherwise. Starting and restarting run one
  frame straight away, as `startGame`/`restartGame` call `update()`.
- `Driver.Run` feeds a sequence of inputs and display frames through the
  game. Before the first start no frame is scheduled, so frames do nothing.

Every `Math.random()` draw of a frame is a field of `Game.Draws`, a real in
[0, 1). The model applies the source's own `floor` to these draws.
Positions and speeds are Dafny `real`s, an exact idealisation of the
JavaScript doubles. The square-root circle test is replaced by a squared
comparison, and `Collisions.SquaredTestMatchesSqrt` proves the two agree.

Modules, one file each: `Common` (min/max, canvas size), `Sprites` (frame
cycling), `HealthBar`, `PlayerEntity` (`pg`), `Obstacles`, `Collisions`,
`Game`, `FrameProperties` (whole-frame lemmas) and `Driver`.

Quirks of the code that the model keeps:

- Restart does not reset every field to its initial value. The airborne
  flag, the displayed health, the run-cycle sprite, gravity, the spawn
  counter and the started flag carry over (`Game.Restart`).
- The collision loop calls `gameOver()` once for each overlapping
  obstacle that finds health at or below 0, and does not stop after the
  first call (`Collisions.GameOverCalledTwice`). In a running game the
  550 spacing leaves at most one overlapping obstacle per pass, so the call
  happens at most once (`FrameProperties.GameOverAtMostOnce`).
- A new obstacle drifts at its own creation speed of 5. It only takes the
  global speed at the next threshold crossing (`Obstacles.NewObstacle`,
  `Obstacles.Move`).

## Model

| member | source | states |
|---|---|---|
| Sprites.FrameInterval | assets/js/main.js:171 | The animation interval max(1, 10 - floor(speed/3)) is at least 1, and at most 10 for non-negative speeds |
| Sprites.FrameIntervalShrinks | assets/js/main.js:171 | A faster game never has a longer animation interval |
| Sprites.FrameIntervalAtRunningSpeeds | assets/js/main.js:171 | At running speeds 10..20 the interval is between 4 and 7 |
| Sprites.Tick | assets/js/main.js:169-176 | After a drawn frame the counter is below the interval. The cell stays on the sheet, and changes only when the counter reached the interval, and then only to the next cell mod the sheet size. When the counter reaches the interval and the cycle is not frozen (as it is for the jumping player), the cell does advance |
| Sprites.TickCycle | assets/js/main.js:314-320 | From a fresh counter, exactly one interval of drawn frames advances the sheet by one cell (mod 4, 9 or 12) and restarts the counter |
| HealthBar.Rate | assets/js/main.js:204 | The easing rate min(1 + speed/10, 2) lies in [1, 2] for non-negative speed |
| HealthBar.Ease | assets/js/main.js:206-210 | The displayed health moves toward the true health without overshoot. Its distance to the true health shrinks by exactly the rate, down to 0 |
| HealthBar.EaseSettles | assets/js/main.js:204-210 | The displayed health reaches the true health within as many frames as the absolute difference of the two |
| HealthBar.Fill | assets/js/main.js:212 | The bar fill is within [0, 300] for health in [0, 100]. It is full exactly at 100 and empty exactly at 0 |
| HealthBar.BarColor | assets/js/main.js:212-217 | The bar colour of the displayed health. Its bands are stated by BarColorBands |
| HealthBar.BarColorBands | assets/js/main.js:213-217 | Less health never shows a milder colour band. Green is exactly above 70, yellow exactly in (50, 70], orange exactly in (30, 50] and red exactly at 30 and below |
| PlayerEntity.Jump | assets/js/main.js:151-156 | A jump is a no-op while airborne. Otherwise it sets dy = -20 and the airborne flag, and changes nothing else |
| PlayerEntity.JumpIdempotent | assets/js/main.js:151-156 | Jumping twice before landing is the same as jumping once |
| PlayerEntity.Update | assets/js/main.js:157-167 | After the step y <= 645. Above the ground line y advances by dy and dy grows by exactly gravity. On reaching or passing the line the player is snapped to 645 with dy = 0 and is no longer airborne |
| PlayerEntity.GroundIsStable | assets/js/main.js:157-167 | A grounded, non-jumping player stays put |
| PlayerEntity.JumpLeavesGround | assets/js/main.js:151-167 | A jump from the ground rises 20 in the next frame, leaves dy = gravity - 20 and stays airborne |
| Obstacles.PickKind | assets/js/main.js:277 | The archetype index floor(u*2) picks ground exactly for u < 0.5 |
| Obstacles.SpawnOffset | assets/js/main.js:280 | The random offset floor(u*300) lies in [0, 300) |
| Obstacles.SpawnX | assets/js/main.js:279-282 | The spawn x is at least lastObstacleX + 550 and at least 1280 + 150. It equals one of the two candidates, so it is their maximum |
| Obstacles.SpawnY | assets/js/main.js:301-307 | Ground obstacles stand on the bottom edge. Air obstacles stand on it exactly when the draw exceeds 0.5, and are raised by 80 otherwise |
| Obstacles.HitboxFor | assets/js/main.js:294-298 | The hitbox circle is centred in the sprite box (offsets are half the sides) and touches its two nearer sides, so its radius is min(w, h)/2 |
| Obstacles.NewObstacle | assets/js/main.js:284-307 | A new obstacle is well formed (archetype size, centred hitbox, spawn height), not passed, not damaged, moving at speed 5, with its sheet at the first cell |
| Obstacles.Move | assets/js/main.js:404-410 | One frame of leftward drift by speed * 0.6. AdvanceSelects states that it is the only change to a kept obstacle |
| Obstacles.Advance | assets/js/main.js:404-410 | Only obstacles still on screen (x + width > 0) are kept, and the list never grows |
| Obstacles.AdvanceSelects | assets/js/main.js:404-410 | Advance keeps exactly those obstacles whose x + width > 0 after moving. It keeps them in their original order, and each moves left by exactly speed*0.6 with no other field changed |
| Obstacles.SpawnKeepsListInv | assets/js/main.js:279-309 | Appending a spawn at least 550 past lastObstacleX keeps the list well formed, in spawn order, 550-spaced and at or left of the new lastObstacleX |
| Obstacles.AdvanceKeepsListInv | assets/js/main.js:404-410 | Drifting and culling keep the list well formed, in spawn order and 550-spaced |
| Obstacles.FlagsKeepListInv | assets/js/main.js:426-430 | Changing only the passed and damaged flags keeps the list invariant |
| Obstacles.AnimateAll | assets/js/main.js:314-345 | Drawing changes only each obstacle's sheet state, which stays on its 9- or 12-cell sheet |
| Obstacles.AnimateAllCycles | assets/js/main.js:314-345 | A drawn obstacle whose counter reaches the interval for its own speed moves to the next cell mod its sheet size and restarts the counter. Otherwise the counter grows by one and the cell stays |
| Obstacles.MarkPassed | assets/js/main.js:479-485 | A passed flag is set exactly when x + width < player x. It is never cleared. The counter grows by the number of flags that flipped |
| Obstacles.SetSpeed | assets/js/main.js:467-468 | Every obstacle takes the new speed and nothing else changes |
| Obstacles.SetSpeedKeepsListInv | assets/js/main.js:463-475 | Giving all obstacles one common speed within [5, 20] keeps the list invariant |
| Collisions.SquaredTestMatchesSqrt | assets/js/main.js:422-426 | The squared test agrees with the source's sqrt(dx*dx + dy*dy) < r1 + r2 |
| Collisions.FarApartMiss | assets/js/main.js:422-426 | Circles whose centres are r1 + r2 or more apart horizontally do not collide |
| Collisions.PlayerCircle | assets/js/main.js:139-149 | The player's hitbox has radius 35 and lies strictly inside the 150 x 75 sprite box |
| Collisions.ObstacleCircle | assets/js/main.js:419-420 | For a well-formed obstacle the hitbox circle lies inside the sprite box and touches both sides along its shorter dimension |
| Collisions.Collide | assets/js/main.js:413-438 | One pass over the list in order: each overlapping obstacle gets damaged = true, and nothing else about any obstacle changes. The game-over flag ends up set exactly when it was already set or the pass called gameOver(), which happens at most once per obstacle |
| Collisions.CollideHealth | assets/js/main.js:426-435 | When some obstacle overlaps, health becomes hp - 20 times the number of newly damaged obstacles, clamped at 0. gameOver() is called exactly when that difference is at or below 0. When none overlaps, the pass changes nothing |
| Collisions.CollideMiss | assets/js/main.js:413-438 | A pass in which no obstacle overlaps leaves obstacles, health and the game-over flag as they were |
| Collisions.RepeatedOverlapDamagesOnce | assets/js/main.js:426-431 | A second pass with the same hitbox over the obstacles the first pass left changes nothing: no obstacle, no health, no game-over flag |
| Collisions.NoNewDamage | assets/js/main.js:427-430 | A pass over obstacles that are all damaged already, from positive health, keeps health and the obstacles and calls gameOver() not at all, wherever the player and the obstacles are |
| Collisions.GameOverCalledTwice | assets/js/main.js:432-435 | The loop calls gameOver() once per overlapping obstacle at or below 0 health: two fresh overlapping obstacles at 20 health call it twice and leave health at 0. Such a list is not 550-spaced, so it never occurs in a running game |
| Collisions.OverlapIsNear | assets/js/main.js:422-426 | Overlapping circles have centres less than r1 + r2 apart horizontally |
| Collisions.HitWindow | assets/js/main.js:417-426 | The player's hitbox reaches a well-formed obstacle only while the obstacle's left edge is less than 80 left or 95 right of the player's |
| Collisions.AtMostOneHit | assets/js/main.js:414-426 | No two obstacles of a well-formed, 550-spaced list overlap the player at once |
| Collisions.CallsAtMostHits | assets/js/main.js:426-435 | A pass calls gameOver() at most once per overlapping obstacle |
| Collisions.SingleHit | assets/js/main.js:414-426 | When no two obstacles overlap the hitbox together, at most one obstacle overlaps it |
| Collisions.SpacedCallsGameOverOnce | assets/js/main.js:413-438 | A pass over a well-formed, 550-spaced list calls gameOver() at most once |
| Game.GravityFor | assets/js/main.js:477 | Gravity 0.5 + speed/35 lies in [0.5, 0.5 + 20/35] for speeds in [0, 20] |
| Game.SpawnChance | assets/js/main.js:453 | The spawn probability is in [0.005, 0.5] and saturates at 0.5 exactly from distance 123.75 |
| Game.SpawnChanceRamps | assets/js/main.js:453 | The spawn probability never falls as distance grows |
| Game.CreateObstacle | assets/js/main.js:276-311 | The list grows by exactly one obstacle, appended at the end, at the new lastObstacleX. That x is at least 550 past the previous one and at least 1430. The obstacle is well formed, fresh and of the drawn archetype. obstacleCount grows by one |
| Game.PlayerPhase | assets/js/main.js:157-210 | Player update, run-cycle tick and health easing. Its guarantees are PlayerPhaseKeepsInv and PlayerStepKeepsInv |
| Game.SpawnPhase | assets/js/main.js:453-455 | An obstacle is created exactly when the spawn draw is below SpawnChance. CreateObstacle and ObstaclesKeepListInv state the effect |
| Game.ObstaclePhase | assets/js/main.js:314-410 | Drift, cull and sprite step of every obstacle. AdvanceSelects, AnimateAll and ObstacleStepKeepsInv state the effect |
| Game.CollisionPhase | assets/js/main.js:413-438 | handleCollisions with gameOver()'s effect on the flag and health (main.js:504-509). Collide, CollideHealth and CollisionPhaseKeepsInv state the effect |
| Game.ProgressPhase | assets/js/main.js:461-477 | Distance, the speed threshold and gravity. ProgressPhaseSteps and ProgressKeepsInv state the effect |
| Game.PassPhase | assets/js/main.js:479-485 | Counting passed obstacles. MarkPassed and PassPhaseKeepsSpeeds state the effect |
| Game.Step | assets/js/main.js:441-501 | A frame after game over changes nothing. Otherwise distance grows by speed/100, even in the frame that ends the game |
| Game.StartKeepsInv | assets/js/main.js:115-121 | Starting a consistent game that is not over sets the started flag and keeps the game invariant |
| Game.Restart | assets/js/main.js:526-543 | Restart equals the freshly loaded state, except that the airborne flag, displayed health, sprite, gravity, obstacleCount and started flag carry over |
| Game.Activate | assets/js/main.js:92-102 | Activate restarts after game over, starts (and runs a frame) before the first start, and otherwise only jumps |
| Game.SpeedFollowsDistance | assets/js/main.js:461-466 | In a consistent state the speed is exactly min(10 + 0.25 * floor(distance/10), 20), within [10, 20] |
| Game.ProgressKeepsInv | assets/js/main.js:461-477 | One frame of progression keeps threshold, speed and distance consistent. The speed rises by at most 0.25 and never past 20 |
| Game.InitialInv | assets/js/main.js:33-46 | The loaded game satisfies the game invariant |
| FrameProperties.PlayerPhaseKeepsInv | assets/js/main.js:157-210 | The player part of a frame keeps y <= 645, x = 50 and health. The run cycle stays on its sheet, and displayed health stays in [0, 100], between its old value and the true health |
| FrameProperties.ObstaclesKeepListInv | assets/js/main.js:453-458 | Spawning, drifting and drawing keep the obstacle list invariant and touch no other state besides the spawn bookkeeping |
| FrameProperties.CollisionKeepsHealth | assets/js/main.js:426-435 | From positive health that is a multiple of 20, a pass leaves a multiple of 20 no larger than before. It is 0 exactly when the pass set the game-over flag |
| FrameProperties.CollisionPhaseKeepsInv | assets/js/main.js:413-438 | In a running frame health stays a multiple of 20 in [0, 100] and never rises. Health is 0 exactly when the game is over |
| FrameProperties.PassPhaseKeepsListInv | assets/js/main.js:479-485 | Pass counting keeps the obstacle list invariant |
| FrameProperties.ProgressPhaseKeepsListInv | assets/js/main.js:463-475 | A threshold crossing keeps the obstacle list invariant |
| FrameProperties.StepKeepsInv | assets/js/main.js:441-501 | Every frame of a started game keeps the whole game invariant |
| FrameProperties.PlayerStepKeepsInv | assets/js/main.js:450-451 | The player part of a frame keeps the game invariant and the started and game-over flags |
| FrameProperties.ObstacleStepKeepsInv | assets/js/main.js:453-458 | The spawn and obstacle part of a frame keeps the game invariant and the started and game-over flags |
| FrameProperties.CollisionStepKeepsInv | assets/js/main.js:413-438 | The collision part of a running frame keeps the game invariant, also when it ends the game |
| FrameProperties.ProgressStepKeepsInv | assets/js/main.js:461-477 | The progression part of a frame keeps the game invariant |
| FrameProperties.PassStepKeepsInv | assets/js/main.js:479-485 | Pass counting keeps the game invariant |
| FrameProperties.ProgressPhaseSteps | assets/js/main.js:461-477 | The progression part alone: distance grows by speed/100, the speed steps by 0.25 (capped at 20) and the threshold by 10 exactly when the threshold is reached, gravity follows the new speed, and on a crossing every obstacle takes it |
| FrameProperties.PassPhaseKeepsSpeeds | assets/js/main.js:479-485 | Pass counting changes only the obstacles' passed flags and the counter, never an obstacle's speed |
| FrameProperties.StepProgression | assets/js/main.js:461-477 | Distance grows by speed/100. Speed is non-decreasing and capped at 20, and it steps by 0.25 exactly when the threshold is reached, which then advances by 10. Gravity becomes 0.5 + speed/35. On a crossing all obstacles take the new speed |
| FrameProperties.StepSpawnSpacing | assets/js/main.js:279-282 | lastObstacleX stays or moves at least 550 right. The obstacles on screen stay 550-spaced and at or left of it |
| FrameProperties.StepHealth | assets/js/main.js:426-435 | Health never rises during a frame, and the game is over exactly at 0 health |
| FrameProperties.FirstFrameObstacles | assets/js/main.js:279-282 | In a fresh run's first frame at most one obstacle exists, it does not touch the player's hitbox and it is not yet level with the player |
| FrameProperties.FirstFrameIsSafe | assets/js/main.js:526-547 | The first frame of a fresh run cannot end it: health stays 100, no passes, and distance is 0.1 |
| FrameProperties.GameOverAtMostOnce | assets/js/main.js:413-438 | In every consistent state a collision pass calls gameOver() at most once; a running frame reaches its collision pass in such a state (PlayerStepKeepsInv, ObstacleStepKeepsInv) |
| FrameProperties.LaterPhasesKeepFlags | assets/js/main.js:459-485 | Collisions, progression and pass counting keep the list's length, order and kinds, and never clear a damaged or passed flag |
| FrameProperties.StepKeepsFlags | assets/js/main.js:404-485 | Every obstacle after a frame comes from a position of the old list or this frame's spawn: the positions kept are exactly the survivors of the drift, in increasing order, each at its moved x. Each keeps a damaged or passed flag set there. So an obstacle costs health at most once and is counted as passed at most once in its lifetime |
| FrameProperties.ActivateKeepsInv | assets/js/main.js:92-102 | The activate input keeps the game invariant |
| FrameProperties.ActivateRestarts | assets/js/main.js:526-547 | Activate after game over yields a running game with full health, no passes, speed 10, distance 0.1 and at most one obstacle |
| FrameProperties.ActivateStarts | assets/js/main.js:114-121 | The first activate yields a running game at full health with distance 0.1 |
| Driver.Handle | assets/js/main.js:92-112 | One input (activate) or one display frame. HandleMovesScreens states the screen transitions |
| Driver.Run | assets/js/main.js:500 | A sequence of inputs and frames, each frame scheduled by the previous one. RunKeepsInv and ReachableStates state what it keeps |
| Driver.HandleMovesScreens | assets/js/main.js:92-102 | Frames change nothing on the welcome and game-over screens. An input there leads to the running screen, and an input while running only jumps |
| Driver.RunKeepsInv | assets/js/main.js:441-442 | Any sequence of inputs and frames keeps the game invariant |
| Driver.InvIsSound | assets/js/main.js:33-46 | A state meeting the game invariant has health a multiple of 20 in [0, 100] that is 0 exactly on the game-over screen, a player never below the ground line, a speed that follows its distance schedule, and 550-spaced obstacles |
| Driver.ReachableStates | assets/js/main.js:441-442 | Every state reached from the loaded page by inputs and frames has all the properties of InvIsSound |

## Left out

- Canvas setup, `resizeCanvas` and CSS scaling: display plumbing.
- Image and sprite loading with the `imagesLoaded` count: asset I/O.
- The model assumes both background images have loaded. `layer.image` starts as `null` and `drawParallax` reads `layer.image.naturalWidth` before `pg.update`, so in the code an activate before both images load (or after an `onerror`) throws inside `update()`. `gameStarted` is already true then and no further frame is scheduled. `Game.Activate` instead always runs a full first frame.
- The soundtrack's play, pause and rewind: audio I/O.
- All `ctx` drawing: sprite source rectangles, the hitbox and health-bar strokes, the HUD text (distance floored to metres, passed count), and the welcome and GAME OVER texts. The counters those texts show are modelled.
- The `playAgain` button's visibility: DOM only.
- `drawParallax` and the reset of layer offsets on restart: the layers are drawing-only state.
- `obs.animationFrame`: it is computed from fields that are never set, so it is always NaN and never read.
- `obs.frameSpeed`: its `'flying'` branch never matches the `'air'` type, and the field is never read.
- The obstacle `color` field and the `'static'` fallback rectangle: both archetypes carry a type, so the fallback branch is unreachable.
- `requestAnimationFrame` scheduling: the driver applies one frame at a time. Left out with it are a second loop, which could start if a restart came before the frame pending at game over ran, and the second activate that a click on the play-again button also delivers to the document.
- The distribution of `Math.random()`: draws are arbitrary reals in [0, 1).
- Floating-point rounding: positions, speeds and distance are exact reals.
- Game.Step: its own contract covers only the frozen game-over frame and the distance increment. The other per-frame guarantees are the FrameProperties lemmas about it.

=== FILE: collisions.dfy ===
/** `handleCollisions`: a circle-circle overlap test between the player's
    hitbox and every live obstacle's, a one-time 20-point hit per obstacle
    gated by its `damaged` flag, and the game-over trigger once health is
    gone. */
module Collisions {
  import opened Common
  import opened PlayerEntity
  import opened Obstacles

  /** Health taken by the first overlap with an obstacle. */
  const Damage: int := 20

  datatype Circle = Circle(cx: real, cy: real, r: real)

  function SqDist(a: Circle, b: Circle): real
  {
    (a.cx - b.cx) * (a.cx - b.cx) + (a.cy - b.cy) * (a.cy - b.cy)
  }

  /** The centres are closer than the sum of the radii, compared squared. */
  predicate Overlaps(a: Circle, b: Circle)
  {
    SqDist(a, b) < (a.r + b.r) * (a.r + b.r)
  }

  /** On non-negative reals, squaring preserves and reflects order. */
  lemma SquareMonotone(x: real, y: real)
    requires 0.0 <= x && 0.0 <= y
    ensures x < y <==> x * x < y * y
  {
    if x < y {
      var low := x * x;
      var mid := x * y;
      var high := y * y;
      assert low <= mid;
      assert mid < high;
    } else {
      var low := y * y;
      var mid := x * y;
      var high := x * x;
      assert low <= mid;
      assert mid <= high;
    }
  }

  /** The squared comparison decides exactly what the square-root
      comparison of the game decides: if `dist` is the (non-negative)
      Euclidean distance of the centres, the circles overlap iff
      dist < r1 + r2. */
  lemma SquaredTestMatchesSqrt(a: Circle, b: Circle, dist: real)
    requires 0.0 <= dist && dist * dist == SqDist(a, b)
    requires 0.0 <= a.r + b.r
    ensures Overlaps(a, b) <==> dist < a.r + b.r
  {
    SquareMonotone(dist, a.r + b.r);
  }

  /** Circles whose centres are at least r1 + r2 apart horizontally miss. */
  lemma FarApartMiss(a: Circle, b: Circle)
    requires 0.0 <= a.r + b.r
    requires a.cx + a.r + b.r <= b.cx
    ensures !Overlaps(a, b)
  {
    var sum := a.r + b.r;
    var dx := b.cx - a.cx;
    assert dx * dx >= sum * dx >= sum * sum;
    assert (a.cx - b.cx) * (a.cx - b.cx) == dx * dx;
  }

  /** The player's hitbox: a circle of radius 35 that lies strictly inside
      the 150 x 75 sprite box, clear of all four edges. */
  function PlayerCircle(p: Player): (c: Circle)
    ensures c.r == HitRadius
    ensures p.x < c.cx - c.r && c.cx + c.r < p.x + SpriteWidth
    ensures p.y < c.cy - c.r && c.cy + c.r < p.y + SpriteHeight
  {
    Circle(p.x + HitOffsetX, p.y + HitOffsetY, HitRadius)
  }

  /** An obstacle's hitbox. For a well-formed obstacle it is the circle
      inscribed in the sprite box: inside the box and touching both sides
      along the box's shorter dimension. */
  function ObstacleCircle(o: Obstacle): (c: Circle)
    ensures WellFormed(o) ==>
      && o.x <= c.cx - c.r && c.cx + c.r <= o.x + o.width as real
      && o.y <= c.cy - c.r && c.cy + c.r <= o.y + o.height as real
      && ((c.cx - c.r == o.x && c.cx + c.r == o.x + o.width as real)
       || (c.cy - c.r == o.y && c.cy + c.r == o.y + o.height as real))
  {
    Circle(o.x + o.hitbox.offsetX, o.y + o.hitbox.offsetY, o.hitbox.radius)
  }

  predicate Hits(c: Circle, o: Obstacle)
  {
    Overlaps(c, ObstacleCircle(o))
  }

  /** The flag update of one overlap test: an overlapped obstacle is
      damaged from now on; anything else is left alone. */
  function Mark(c: Circle, o: Obstacle): Obstacle
  {
    if Hits(c, o) then o.(damaged := true) else o
  }

  /** Number of obstacles whose `damaged` flag is set. */
  function DamagedCount(obs: seq<Obstacle>): nat
  {
    if |obs| == 0 then 0 else (if obs[0].damaged then 1 else 0) + DamagedCount(obs[1..])
  }

  /** Some obstacle of the list overlaps the circle. */
  predicate AnyHit(c: Circle, obs: seq<Obstacle>)
  {
    |obs| > 0 && (Hits(c, obs[0]) || AnyHit(c, obs[1..]))
  }

  /** Result of a collision pass: the obstacles with their updated flags,
      the player's health, the game-over flag, and how many times the pass
      called `gameOver()`. */
  datatype Outcome = Outcome(obstacles: seq<Obstacle>, hp: int, gameOver: bool, gameOverCalls: nat)

  /** One pass of `handleCollisions` over `obs`, in list order, for a
      player hitbox `c` starting with health `hp`: every overlapped
      obstacle ends up damaged and nothing else about it changes, and the
      game-over flag is set once `gameOver()` has been called. How the
      health and the `gameOver()` calls come out is CollideHealth. */
  function Collide(c: Circle, obs: seq<Obstacle>, hp: int, over: bool): (r: Outcome)
    ensures |r.obstacles| == |obs|
    ensures forall i :: 0 <= i < |obs| ==> r.obstacles[i] == Mark(c, obs[i])
    ensures r.gameOver == (over || r.gameOverCalls > 0)
    ensures r.gameOverCalls <= |obs|
  {
    if |obs| == 0 then Outcome(obs, hp, over, 0)
    else
      var o := obs[0];
      var hit := Hits(c, o);
      var hp1 := if hit && !o.damaged then hp - Damage else hp;
      var ends := hit && hp1 <= 0;
      var rest := Collide(c, obs[1..], if ends then 0 else hp1, over || ends);
      Outcome([Mark(c, o)] + rest.obstacles, rest.hp, rest.gameOver, rest.gameOverCalls + if ends then 1 else 0)
  }

  /** Obstacles newly damaged by a pass. */
  function NewHits(c: Circle, obs: seq<Obstacle>, hp: int, over: bool): int
  {
    DamagedCount(Collide(c, obs, hp, over).obstacles) - DamagedCount(obs)
  }

  /** A pass in which no obstacle overlaps changes nothing. */
  lemma {:induction false} CollideMiss(c: Circle, obs: seq<Obstacle>, hp: int, over: bool)
    requires !AnyHit(c, obs)
    ensures Collide(c, obs, hp, over) == Outcome(obs, hp, over, 0)
    decreases |obs|
  {
    if |obs| > 0 {
      CollideMiss(c, obs[1..], hp, over);
      assert [obs[0]] + obs[1..] == obs;
    }
  }

  /** The obstacles newly damaged by a pass are those of its tail plus the
      front one when it overlaps for the first time. */
  lemma NewHitsFront(c: Circle, obs: seq<Obstacle>, hp: int, over: bool, hp2: int, over2: bool)
    requires |obs| > 0
    ensures NewHits(c, obs, hp, over)
         == NewHits(c, obs[1..], hp2, over2) + (if Hits(c, obs[0]) && !obs[0].damaged then 1 else 0)
  {
    var r := Collide(c, obs, hp, over).obstacles;
    var t := Collide(c, obs[1..], hp2, over2).obstacles;
    assert r[1..] == t;
  }

  /** Health and game over after a pass: when some obstacle overlaps,
      health is hp - 20 * (number of obstacles damaged now for the first
      time), clamped at 0, and `gameOver()` is called (at least once)
      exactly when that difference is at or below 0; when none overlaps,
      nothing changes at all. */
  lemma {:induction false} CollideHealth(c: Circle, obs: seq<Obstacle>, hp: int, over: bool)
    ensures var r := Collide(c, obs, hp, over);
      && 0 <= NewHits(c, obs, hp, over)
      && (!AnyHit(c, obs) ==> r.obstacles == obs && r.hp == hp && r.gameOverCalls == 0)
      && (AnyHit(c, obs) ==> r.hp == MaxI(0, hp - Damage * NewHits(c, obs, hp, over)))
      && (r.gameOverCalls > 0 <==> AnyHit(c, obs) && hp - Damage * NewHits(c, obs, hp, over) <= 0)
    decreases |obs|
  {
    if !AnyHit(c, obs) {
      CollideMiss(c, obs, hp, over);
    } else {
      var o := obs[0];
      var hit := Hits(c, o);
      var hp1 := if hit && !o.damaged then hp - Damage else hp;
      var ends := hit && hp1 <= 0;
      var hp2 := if ends then 0 else hp1;
      CollideHealth(c, obs[1..], hp2, over || ends);
      NewHitsFront(c, obs, hp, over, hp2, over || ends);
    }
  }

  /** A second pass with the same hitbox over the first pass's output, with
      the obstacles unmoved, changes nothing. Moved obstacles across frames
      are covered by NoNewDamage and FrameProperties.StepKeepsFlags. */
  lemma {:induction false} RepeatedOverlapDamagesOnce(c: Circle, obs: seq<Obstacle>, hp: int, over: bool)
    ensures var first := Collide(c, obs, hp, over);
            var second := Collide(c, first.obstacles, first.hp, first.gameOver);
            second.obstacles == first.obstacles && second.hp == first.hp && second.gameOver == first.gameOver
  {
    var first := Collide(c, obs, hp, over);
    var second := Collide(c, first.obstacles, first.hp, first.gameOver);
    SameHits(c, obs, first.obstacles);
    forall i | 0 <= i < |obs|
      ensures second.obstacles[i] == first.obstacles[i]
    {
      assert Hits(c, first.obstacles[i]) == Hits(c, obs[i]);
    }
    assert second.obstacles == first.obstacles;
    assert NewHits(c, first.obstacles, first.hp, first.gameOver) == 0;
    CollideHealth(c, obs, hp, over);
    CollideHealth(c, first.obstacles, first.hp, first.gameOver);
  }

  /** Changing only `damaged` flags does not change which obstacles overlap. */
  lemma {:induction false} SameHits(c: Circle, a: seq<Obstacle>, b: seq<Obstacle>)
    requires |a| == |b|
    requires forall i :: 0 <= i < |a| ==> b[i] == a[i].(damaged := b[i].damaged)
    ensures AnyHit(c, a) == AnyHit(c, b)
    decreases |a|
  {
    if |a| > 0 {
      SameHits(c, a[1..], b[1..]);
    }
  }

  /** The loop of `handleCollisions` calls `gameOver()` once for every
      overlapping obstacle that finds health at or below 0, so two fresh
      obstacles overlapping the player in one pass with 20 health left call
      it twice. This input is not reachable in a running game: the 550
      spacing of live obstacles lets at most one overlap the player
      (GameOverAtMostOnce). */
  lemma GameOverCalledTwice(c: Circle, o: Obstacle)
    requires Hits(c, o) && !o.damaged
    ensures Collide(c, [o, o], Damage, false).gameOverCalls == 2
    ensures Collide(c, [o, o], Damage, false).hp == 0
  {
    assert [o, o][1..] == [o];
    assert Collide(c, [o], 0, true).gameOverCalls == 1;
  }

  /** A pass over obstacles that are all damaged already costs nothing and
      cannot end the game, wherever the player and the obstacles are. */
  lemma NoNewDamage(c: Circle, obs: seq<Obstacle>, hp: int, over: bool)
    requires 0 < hp
    requires forall i :: 0 <= i < |obs| ==> obs[i].damaged
    ensures var r := Collide(c, obs, hp, over);
      r.obstacles == obs && r.hp == hp && r.gameOverCalls == 0 && r.gameOver == over
  {
    var r := Collide(c, obs, hp, over);
    assert r.obstacles == obs;
    CollideHealth(c, obs, hp, over);
  }

  /** Overlapping circles have centres closer than r1 + r2 horizontally. */
  lemma OverlapIsNear(a: Circle, b: Circle)
    requires 0.0 <= a.r + b.r
    requires Overlaps(a, b)
    ensures -(a.r + b.r) < a.cx - b.cx < a.r + b.r
  {
    var sum := a.r + b.r;
    var dx := a.cx - b.cx;
    var adx := AbsR(dx);
    assert adx * adx == dx * dx;
    assert adx * adx < sum * sum;
    SquareMonotone(adx, sum);
  }

  /** The player's hitbox reaches a well-formed obstacle only while the
      obstacle's left edge lies less than 80 left or 95 right of the
      player's left edge. */
  lemma HitWindow(p: Player, o: Obstacle)
    requires WellFormed(o) && Hits(PlayerCircle(p), o)
    ensures p.x - 80.0 < o.x < p.x + 95.0
  {
    OverlapIsNear(PlayerCircle(p), ObstacleCircle(o));
  }

  /** Two obstacles of a 550-spaced list never overlap the player at once. */
  lemma AtMostOneHit(p: Player, obs: seq<Obstacle>, i: int, j: int)
    requires forall o :: o in obs ==> WellFormed(o)
    requires Spaced(obs)
    requires 0 <= i < j < |obs|
    ensures !(Hits(PlayerCircle(p), obs[i]) && Hits(PlayerCircle(p), obs[j]))
  {
    assert Gap(obs[i], obs[j]);
    if Hits(PlayerCircle(p), obs[i]) && Hits(PlayerCircle(p), obs[j]) {
      HitWindow(p, obs[i]);
      HitWindow(p, obs[j]);
    }
  }

  /** Number of obstacles of the list that overlap the circle. */
  function HitCount(c: Circle, obs: seq<Obstacle>): nat
  {
    if |obs| == 0 then 0 else (if Hits(c, obs[0]) then 1 else 0) + HitCount(c, obs[1..])
  }

  /** Each `gameOver()` call of a pass comes from a distinct overlapping
      obstacle. */
  lemma {:induction false} CallsAtMostHits(c: Circle, obs: seq<Obstacle>, hp: int, over: bool)
    ensures Collide(c, obs, hp, over).gameOverCalls <= HitCount(c, obs)
    decreases |obs|
  {
    if |obs| > 0 {
      var o := obs[0];
      var hit := Hits(c, o);
      var hp1 := if hit && !o.damaged then hp - Damage else hp;
      var ends := hit && hp1 <= 0;
      CallsAtMostHits(c, obs[1..], if ends then 0 else hp1, over || ends);
    }
  }

  lemma {:induction false} NoHitsNoCount(c: Circle, obs: seq<Obstacle>)
    requires forall i :: 0 <= i < |obs| ==> !Hits(c, obs[i])
    ensures HitCount(c, obs) == 0
    decreases |obs|
  {
    if |obs| > 0 {
      NoHitsNoCount(c, obs[1..]);
    }
  }

  /** When no two obstacles overlap the circle together, at most one does. */
  lemma {:induction false} SingleHit(c: Circle, obs: seq<Obstacle>)
    requires forall i, j :: 0 <= i < j < |obs| ==> !(Hits(c, obs[i]) && Hits(c, obs[j]))
    ensures HitCount(c, obs) <= 1
    decreases |obs|
  {
    if |obs| > 0 {
      var t := obs[1..];
      forall i, j | 0 <= i < j < |t|
        ensures !(Hits(c, t[i]) && Hits(c, t[j]))
      {
        assert t[i] == obs[i + 1] && t[j] == obs[j + 1];
      }
      SingleHit(c, t);
      if Hits(c, obs[0]) {
        forall j | 0 <= j < |t|
          ensures !Hits(c, t[j])
        {
          assert t[j] == obs[j + 1];
        }
        NoHitsNoCount(c, t);
      }
    }
  }

  /** A pass over a well-formed, 550-spaced list calls `gameOver()` at most
      once. */
  lemma SpacedCallsGameOverOnce(p: Player, obs: seq<Obstacle>, hp: int, over: bool)
    requires forall o :: o in obs ==> WellFormed(o)
    requires Spaced(obs)
    ensures Collide(PlayerCircle(p), obs, hp, over).gameOverCalls <= 1
  {
    var c := PlayerCircle(p);
    forall i, j | 0 <= i < j < |obs|
      ensures !(Hits(c, obs[i]) && Hits(c, obs[j]))
    {
      AtMostOneHit(p, obs, i, j);
    }
    SingleHit(c, obs);
    CallsAtMostHits(c, obs, hp, over);
  }
}

=== FILE: common.dfy ===
/** Numeric helpers (JavaScript's Math.min / Math.max, and an absolute value for contracts) and the
    fixed logical coordinate space of the game. */
module Common {

  /** Logical canvas size: every position in the game lives in 1280 x 720. */
  const CanvasWidth: int := 1280
  const CanvasHeight: int := 720

  /** Hard cap on the global running speed. */
  const MaxSpeed: real := 20.0

  /** The speed every new obstacle is created with (obstacleSpeed). */
  const ObstacleSpeed: real := 5.0

  function MinR(a: real, b: real): real { if a <= b then a else b }

  function MaxR(a: real, b: real): real { if a >= b then a else b }

  function MinI(a: int, b: int): int { if a <= b then a else b }

  function MaxI(a: int, b: int): int { if a >= b then a else b }

  function AbsR(a: real): real { if a < 0.0 then -a else a }
}

=== FILE: driver.dfy ===
/** The driver around the game: input events and display frames arrive one
    at a time. A display frame runs `update` only once the game has been
    started (before that no frame is scheduled); an input is the activate
    action. */
module Driver {
  import opened Common
  import opened PlayerEntity
  import opened Collisions
  import opened Game
  import opened FrameProperties

  datatype Event = Press(d: Draws) | Frame(d: Draws)

  datatype Screen = Welcome | Running | GameOver

  predicate ValidEvents(evs: seq<Event>)
  {
    forall i :: 0 <= i < |evs| ==> ValidDraws(evs[i].d)
  }

  /** The screen the player sees for a state. */
  function ScreenOf(s: GameState): Screen
  {
    if !s.gameStarted then Welcome else if s.gameOverState then GameOver else Running
  }

  function Handle(s: GameState, e: Event): GameState
    requires ValidDraws(e.d)
  {
    match e
    case Press(d) => Activate(s, d)
    case Frame(d) => if s.gameStarted then Step(s, d) else s
  }

  function Run(s: GameState, evs: seq<Event>): GameState
    requires ValidEvents(evs)
    decreases |evs|
  {
    if |evs| == 0 then s else Run(Handle(s, evs[0]), evs[1..])
  }

  /** The screen machine: Welcome only leaves on an input, to Running;
      GameOver only leaves on an input, and then to Running; a frame never
      leaves GameOver or Welcome. */
  lemma HandleMovesScreens(s: GameState, e: Event)
    requires Inv(s) && ValidDraws(e.d)
    ensures var t := Handle(s, e);
      && (e.Frame? && ScreenOf(s) != Running ==> t == s)
      && (e.Press? && ScreenOf(s) != Running ==> ScreenOf(t) == Running)
      && (e.Press? && ScreenOf(s) == Running ==> t == s.(player := Jump(s.player)))
      && (ScreenOf(t) == Welcome ==> t == s && s == Initial)
  {
    match e
    case Press(d) =>
      if s.gameOverState {
        ActivateRestarts(s, d);
      } else if !s.gameStarted {
        ActivateStarts(d);
      }
    case Frame(d) =>
  }

  /** Every state reachable from the loaded page keeps the game invariant. */
  lemma {:induction false} RunKeepsInv(s: GameState, evs: seq<Event>)
    requires Inv(s) && ValidEvents(evs)
    ensures Inv(Run(s, evs))
    decreases |evs|
  {
    if |evs| > 0 {
      var t := Handle(s, evs[0]);
      match evs[0] {
        case Press(d) => ActivateKeepsInv(s, d);
        case Frame(d) =>
          if s.gameStarted {
            StepKeepsInv(s, d);
          }
      }
      assert ValidEvents(evs[1..]) by {
        forall i | 0 <= i < |evs[1..]|
          ensures ValidDraws(evs[1..][i].d)
        {
          assert evs[1..][i] == evs[i + 1];
        }
      }
      RunKeepsInv(t, evs[1..]);
    }
  }

  /** What the game invariant guarantees about a state: health is a
      multiple of 20 in 0..100 and 0 exactly on the game-over screen, the
      player never sinks below the ground line, the speed obeys its
      distance schedule, and the obstacles on screen are spaced at least
      550 apart. */
  predicate Sound(s: GameState)
  {
    && 0 <= s.player.hp <= MaxHp && s.player.hp % Damage == 0
    && (s.player.hp == 0 <==> ScreenOf(s) == GameOver)
    && s.player.y <= GroundY
    && InitialSpeed <= s.speed <= MaxSpeed
    && s.speed == MinR(InitialSpeed + SpeedStep * (s.distance / 10.0).Floor as real, MaxSpeed)
    && Obstacles.Spaced(s.obstacles)
  }

  lemma InvIsSound(s: GameState)
    requires Inv(s)
    ensures Sound(s)
  {
    assert ProgressInv(s);
    SpeedFollowsDistance(s);
    assert s.player.hp == 0 <==> s.gameOverState;
    assert s.gameOverState ==> s.gameStarted;
  }

  /** Every state reachable from the loaded page is sound. */
  lemma ReachableStates(evs: seq<Event>)
    requires ValidEvents(evs)
    ensures Sound(Run(Initial, evs))
  {
    InitialInv();
    RunKeepsInv(Initial, evs);
    InvIsSound(Run(Initial, evs));
  }
}

=== FILE: frame_properties.dfy ===
/** Properties of whole frames and of the activate input: every reachable
    state keeps the game invariant, and the per-frame guarantees of the
    individual rules hold of `Step` as a whole. */
module FrameProperties {
  import opened Common
  import opened Sprites
  import opened PlayerEntity
  import opened Obstacles
  import opened Collisions
  import opened Game

  /** Player part of a frame: the player stays at or above the ground line,
      the run cycle stays on its sheet and the displayed health stays
      between its old value and the true health. */
  lemma PlayerPhaseKeepsInv(s: GameState)
    requires Inv(s)
    ensures var r := PlayerPhase(s);
      && r.player.x == StartX && r.player.y <= GroundY && r.player.hp == s.player.hp
      && r.sprite.frame < PlayerFrames
      && 0.0 <= r.visibleHp <= MaxHp as real
      && MinR(s.visibleHp, s.player.hp as real) <= r.visibleHp <= MaxR(s.visibleHp, s.player.hp as real)
      && r == s.(player := r.player, sprite := r.sprite, visibleHp := r.visibleHp)
  {
  }

  /** The obstacle part of a frame (spawn, drift and cull, draw) keeps the
      list invariant. */
  lemma ObstaclesKeepListInv(s: GameState, d: Draws)
    requires ValidDraws(d)
    requires ListInv(s.obstacles, s.lastObstacleX)
    ensures var r := ObstaclePhase(SpawnPhase(s, d));
      && ListInv(r.obstacles, r.lastObstacleX)
      && r == s.(obstacles := r.obstacles, lastObstacleX := r.lastObstacleX, obstacleCount := r.obstacleCount)
  {
    var s2 := SpawnPhase(s, d);
    if d.spawn < SpawnChance(s.distance) {
      var o := s2.obstacles[|s.obstacles|];
      assert s2.obstacles == s.obstacles + [o];
      SpawnKeepsListInv(s.obstacles, s.lastObstacleX, o);
    }
    AdvanceKeepsListInv(s2.obstacles, s2.lastObstacleX);
    AnimateKeepsListInv(Advance(s2.obstacles), s2.lastObstacleX);
  }

  /** Removing whole hits from a multiple of 20 leaves a multiple of 20. */
  lemma HitsKeepMultiple(hp: int, n: int)
    requires hp % Damage == 0
    ensures (hp - Damage * n) % Damage == 0
  {
    var k := hp / Damage;
    assert hp == Damage * k;
    assert hp - Damage * n == Damage * (k - n);
  }

  /** Health after one collision pass that starts running with positive
      health: a multiple of 20 in 0..hp, and 0 exactly when the pass ended
      the game. */
  lemma CollisionKeepsHealth(c: Circle, obs: seq<Obstacle>, hp: int)
    requires 0 < hp && hp % Damage == 0
    ensures var out := Collide(c, obs, hp, false);
      && 0 <= out.hp <= hp
      && out.hp % Damage == 0
      && (out.hp == 0 <==> out.gameOver)
  {
    var out := Collide(c, obs, hp, false);
    var n := NewHits(c, obs, hp, false);
    Collisions.CollideHealth(c, obs, hp, false);
    HitsKeepMultiple(hp, n);
    if AnyHit(c, obs) {
      assert out.hp == MaxI(0, hp - Damage * n);
      assert out.gameOver <==> hp - Damage * n <= 0;
    } else {
      assert out.hp == hp;
      assert !out.gameOver;
    }
  }

  /** The collision part of a running frame: health stays a multiple of 20
      in 0..100, the game is over exactly when health reached 0, health
      never rises, and the list invariant survives. */
  lemma CollisionPhaseKeepsInv(s: GameState)
    requires !s.gameOverState
    requires 0 < s.player.hp <= MaxHp && s.player.hp % Damage == 0
    requires ListInv(s.obstacles, s.lastObstacleX)
    ensures var r := CollisionPhase(s);
      && 0 <= r.player.hp <= s.player.hp
      && r.player.hp % Damage == 0
      && (r.player.hp == 0 <==> r.gameOverState)
      && ListInv(r.obstacles, r.lastObstacleX)
      && r.player == s.player.(hp := r.player.hp)
  {
    var out := Collide(PlayerCircle(s.player), s.obstacles, s.player.hp, s.gameOverState);
    CollisionKeepsHealth(PlayerCircle(s.player), s.obstacles, s.player.hp);
    FlagsKeepListInv(s.obstacles, out.obstacles, s.lastObstacleX);
  }

  /** The pass-counting part keeps the list invariant. */
  lemma PassPhaseKeepsListInv(s: GameState)
    requires ListInv(s.obstacles, s.lastObstacleX)
    ensures ListInv(PassPhase(s).obstacles, s.lastObstacleX)
  {
    var marked := MarkPassed(s.obstacles, s.player.x);
    FlagsKeepListInv(s.obstacles, marked.0, s.lastObstacleX);
  }

  /** The progression part keeps the list invariant. */
  lemma ProgressPhaseKeepsListInv(s: GameState)
    requires ProgressInv(s)
    requires ListInv(s.obstacles, s.lastObstacleX)
    ensures ListInv(ProgressPhase(s).obstacles, s.lastObstacleX)
  {
    SpeedFollowsDistance(s);
    ProgressKeepsInv(s);
    var r := ProgressPhase(s);
    if r.nextSpeedIncrement != s.nextSpeedIncrement {
      SetSpeedKeepsListInv(s.obstacles, s.lastObstacleX, r.speed);
    }
  }

  /** Every frame of a started game keeps the game invariant. */
  lemma StepKeepsInv(s: GameState, d: Draws)
    requires Inv(s) && s.gameStarted && ValidDraws(d)
    ensures Inv(Step(s, d))
  {
    if !s.gameOverState {
      var p1 := PlayerPhase(s);
      PlayerStepKeepsInv(s);
      var p3 := ObstaclePhase(SpawnPhase(p1, d));
      ObstacleStepKeepsInv(p1, d);
      var p4 := CollisionPhase(p3);
      CollisionStepKeepsInv(p3);
      var p5 := ProgressPhase(p4);
      ProgressStepKeepsInv(p4);
      PassStepKeepsInv(p5);
    }
  }

  /** The player part of a running frame keeps the game invariant. */
  lemma PlayerStepKeepsInv(s: GameState)
    requires Inv(s) && s.gameStarted
    ensures var r := PlayerPhase(s);
      Inv(r) && r.gameStarted && r.gameOverState == s.gameOverState
  {
    PlayerPhaseKeepsInv(s);
  }

  /** The obstacle part of a running frame keeps the game invariant. */
  lemma ObstacleStepKeepsInv(s: GameState, d: Draws)
    requires Inv(s) && s.gameStarted && ValidDraws(d)
    ensures var r := ObstaclePhase(SpawnPhase(s, d));
      Inv(r) && r.gameStarted && r.gameOverState == s.gameOverState
  {
    ObstaclesKeepListInv(s, d);
  }

  /** The collision part of a running frame keeps the game invariant, also
      when it ends the game. */
  lemma CollisionStepKeepsInv(s: GameState)
    requires Inv(s) && s.gameStarted && !s.gameOverState
    ensures var r := CollisionPhase(s);
      Inv(r) && r.gameStarted
  {
    CollisionPhaseKeepsInv(s);
  }

  /** The progression part of a frame keeps the game invariant. */
  lemma ProgressStepKeepsInv(s: GameState)
    requires Inv(s) && s.gameStarted
    ensures var r := ProgressPhase(s);
      Inv(r) && r.gameStarted
  {
    ProgressKeepsInv(s);
    ProgressPhaseKeepsListInv(s);
  }

  /** The pass-counting part of a frame keeps the game invariant. */
  lemma PassStepKeepsInv(s: GameState)
    requires Inv(s) && s.gameStarted
    ensures Inv(PassPhase(s))
  {
    PassPhaseKeepsListInv(s);
  }

  /** The progression part of a frame on its own: distance grows by
      speed / 100, the speed rises by one step (capped) and the threshold
      moves on by 10 exactly when the threshold is reached, gravity follows
      the new speed, and on a crossing every obstacle takes the new speed. */
  lemma ProgressPhaseSteps(p: GameState)
    requires ProgressInv(p)
    ensures var r := ProgressPhase(p);
      var crossed := p.distance + p.speed / 100.0 >= p.nextSpeedIncrement as real;
      && r.distance == p.distance + p.speed / 100.0
      && p.speed <= r.speed <= MaxSpeed
      && r.speed == (if crossed then MinR(p.speed + SpeedStep, MaxSpeed) else p.speed)
      && r.nextSpeedIncrement == (if crossed then p.nextSpeedIncrement + Milestone else p.nextSpeedIncrement)
      && r.gravity == BaseGravity + r.speed / 35.0
      && (crossed ==> forall i :: 0 <= i < |r.obstacles| ==> r.obstacles[i].speed == r.speed)
  {
    ProgressKeepsInv(p);
  }

  /** Counting passes touches only the passed flags and the counter. */
  lemma PassPhaseKeepsSpeeds(p: GameState)
    ensures var r := PassPhase(p);
      && r == p.(obstacles := r.obstacles, passedObstacles := r.passedObstacles)
      && |r.obstacles| == |p.obstacles|
      && forall i :: 0 <= i < |r.obstacles| ==> r.obstacles[i].speed == p.obstacles[i].speed
  {
  }

  /** The progression guarantees of a running frame: distance grows by
      speed / 100, speed never falls and never exceeds the cap, the
      threshold moves on by 10 exactly when it is reached, gravity follows
      the new speed, and on a crossing every obstacle takes the new speed.
      All of this holds also in the frame in which the game ends. */
  lemma StepProgression(s: GameState, d: Draws)
    requires ProgressInv(s) && !s.gameOverState && ValidDraws(d)
    ensures var r := Step(s, d);
      var crossed := s.distance + s.speed / 100.0 >= s.nextSpeedIncrement as real;
      && r.distance == s.distance + s.speed / 100.0
      && s.speed <= r.speed <= MaxSpeed
      && r.speed == (if crossed then MinR(s.speed + SpeedStep, MaxSpeed) else s.speed)
      && r.nextSpeedIncrement == (if crossed then s.nextSpeedIncrement + Milestone else s.nextSpeedIncrement)
      && r.gravity == BaseGravity + r.speed / 35.0
      && (crossed ==> forall o :: o in r.obstacles ==> o.speed == r.speed)
  {
    var p4 := CollisionPhase(ObstaclePhase(SpawnPhase(PlayerPhase(s), d)));
    var p5 := ProgressPhase(p4);
    ProgressPhaseSteps(p4);
    PassPhaseKeepsSpeeds(p5);
    if s.distance + s.speed / 100.0 >= s.nextSpeedIncrement as real {
      AllAtSpeed(PassPhase(p5).obstacles, p5.speed);
    }
  }

  lemma AllAtSpeed(obs: seq<Obstacle>, v: real)
    requires forall i :: 0 <= i < |obs| ==> obs[i].speed == v
    ensures forall o :: o in obs ==> o.speed == v
  {
    forall o | o in obs
      ensures o.speed == v
    {
      var i :| 0 <= i < |obs| && obs[i] == o;
    }
  }

  /** Spawn spacing across frames: a frame either leaves the reference
      position alone or moves it at least 550 to the right, and every
      obstacle on screen lies at or left of it, at least 550 behind its
      successor. */
  lemma StepSpawnSpacing(s: GameState, d: Draws)
    requires Inv(s) && s.gameStarted && ValidDraws(d)
    ensures var r := Step(s, d);
      && (r.lastObstacleX == s.lastObstacleX || r.lastObstacleX >= s.lastObstacleX + MinDistance)
      && Spaced(r.obstacles)
      && forall o :: o in r.obstacles ==> o.x <= r.lastObstacleX as real
  {
    StepKeepsInv(s, d);
  }

  /** Health never rises within a run, and reaching 0 is the game over. */
  lemma StepHealth(s: GameState, d: Draws)
    requires Inv(s) && s.gameStarted && ValidDraws(d)
    ensures var r := Step(s, d);
      && r.player.hp <= s.player.hp
      && (r.gameOverState <==> r.player.hp == 0)
  {
    StepKeepsInv(s, d);
    if !s.gameOverState {
      var p1 := PlayerPhase(s);
      PlayerPhaseKeepsInv(s);
      var p3 := ObstaclePhase(SpawnPhase(p1, d));
      ObstaclesKeepListInv(p1, d);
      CollisionPhaseKeepsInv(p3);
    }
  }

  /** The obstacles of a game's first frame, after spawning and drifting:
      at most one, and none touching the player's hitbox or already level
      with the player. */
  lemma FirstFrameObstacles(s: GameState, d: Draws)
    requires ValidDraws(d)
    requires s.player.x == StartX && s.player.y <= GroundY && s.obstacles == []
    ensures var p := ObstaclePhase(SpawnPhase(PlayerPhase(s), d));
      && |p.obstacles| <= 1
      && !AnyHit(PlayerCircle(p.player), p.obstacles)
      && forall i :: 0 <= i < |p.obstacles| ==> !PassesNow(p.obstacles[i], p.player.x)
  {
    var p1 := PlayerPhase(s);
    var p2 := SpawnPhase(p1, d);
    var p3 := ObstaclePhase(p2);
    var idx := AdvanceSelects(p2.obstacles);
    assert |p2.obstacles| <= 1;
    var c := PlayerCircle(p1.player);
    if |p3.obstacles| == 1 {
      var o := p2.obstacles[0];
      var m := p3.obstacles[0];
      assert o.x >= (CanvasWidth + SpawnMargin) as real;
      assert m.x == o.x - o.speed * Drift;
      FarApartMiss(c, ObstacleCircle(m));
      assert !AnyHit(c, p3.obstacles[1..]);
    }
  }

  /** A game at its very start (after the first activate or a restart):
      nothing on screen, full health, no distance. Its first frame cannot
      end the game: any new obstacle appears far to the right. */
  lemma FirstFrameIsSafe(s: GameState, d: Draws)
    requires ProgressInv(s) && !s.gameOverState && ValidDraws(d)
    requires s.player.x == StartX && s.player.y <= GroundY
    requires s.obstacles == [] && s.player.hp == MaxHp && s.distance == 0.0 && s.passedObstacles == 0
    ensures var r := Step(s, d);
      && !r.gameOverState
      && r.player.hp == MaxHp
      && r.distance == InitialSpeed / 100.0
      && r.speed == InitialSpeed
      && r.passedObstacles == 0
      && |r.obstacles| <= 1
  {
    SpeedFollowsDistance(s);
    var p3 := ObstaclePhase(SpawnPhase(PlayerPhase(s), d));
    FirstFrameObstacles(s, d);
    Collisions.CollideHealth(PlayerCircle(p3.player), p3.obstacles, p3.player.hp, p3.gameOverState);
    var p5 := ProgressPhase(CollisionPhase(p3));
    var marked := MarkPassed(p5.obstacles, p5.player.x);
    assert marked.0 == p5.obstacles;
  }

  /** Activate keeps the game invariant. */
  lemma ActivateKeepsInv(s: GameState, d: Draws)
    requires Inv(s) && ValidDraws(d)
    ensures Inv(Activate(s, d))
  {
    if s.gameOverState {
      StepKeepsInv(Restart(s), d);
    } else if !s.gameStarted {
      StepKeepsInv(Start(s), d);
    }
  }

  /** Activate after a game over restarts into a fresh running game: the
      restart frame leaves it running with full health, no passes, the
      initial speed and one frame of distance. */
  lemma ActivateRestarts(s: GameState, d: Draws)
    requires Inv(s) && s.gameOverState && ValidDraws(d)
    ensures var r := Activate(s, d);
      && !r.gameOverState && r.gameStarted
      && r.player.hp == MaxHp
      && r.passedObstacles == 0
      && r.speed == InitialSpeed
      && r.distance == InitialSpeed / 100.0
      && |r.obstacles| <= 1
  {
    FirstFrameIsSafe(Restart(s), d);
  }

  /** The first activate starts a game whose first frame is safe. */
  lemma ActivateStarts(d: Draws)
    requires ValidDraws(d)
    ensures var r := Activate(Initial, d);
      && !r.gameOverState && r.gameStarted && r.player.hp == MaxHp && r.distance == InitialSpeed / 100.0
  {
    FirstFrameIsSafe(Start(Initial), d);
  }

  /** In a consistent state one collision pass calls `gameOver()` at most
      once: obstacles are 550 apart, so at most one overlaps the player.
      A running frame collides in such a state: PlayerStepKeepsInv and
      ObstacleStepKeepsInv keep Inv up to the collision phase. */
  lemma GameOverAtMostOnce(s: GameState)
    requires Inv(s)
    ensures Collide(PlayerCircle(s.player), s.obstacles, s.player.hp, s.gameOverState).gameOverCalls <= 1
  {
    SpacedCallsGameOverOnce(s.player, s.obstacles, s.player.hp, s.gameOverState);
  }

  /** Collisions, progression and pass counting keep the list's length and
      order and never clear a damaged or passed flag. */
  lemma LaterPhasesKeepFlags(p: GameState)
    ensures var r := PassPhase(ProgressPhase(CollisionPhase(p))).obstacles;
      && |r| == |p.obstacles|
      && forall k :: 0 <= k < |r| ==>
           && r[k].kind == p.obstacles[k].kind
           && (p.obstacles[k].damaged ==> r[k].damaged)
           && (p.obstacles[k].passed ==> r[k].passed)
  {
  }

  /** Flags are never cleared across a frame: every obstacle after the frame
      comes from a position `idx[k]` of the list before drifting (the old
      list, followed by this frame's spawn if any): the positions kept are
      exactly the survivors of the drift, in order, each moved once. Each
      keeps a damaged or passed flag that was set there. With NoNewDamage this means an
      obstacle costs health at most once in its lifetime, and with
      MarkPassed that it is counted as passed at most once. */
  lemma StepKeepsFlags(s: GameState, d: Draws) returns (idx: seq<nat>)
    requires !s.gameOverState && ValidDraws(d)
    ensures var spawned := SpawnPhase(PlayerPhase(s), d).obstacles;
      var r := Step(s, d).obstacles;
      && |s.obstacles| <= |spawned| && spawned[..|s.obstacles|] == s.obstacles
      && |idx| == |r| && Increasing(idx)
      && (forall i :: 0 <= i < |spawned| ==> (i in idx <==> Survives(spawned[i])))
      && forall k :: 0 <= k < |r| ==>
           && idx[k] < |spawned|
           && r[k].x == Move(spawned[idx[k]]).x
           && r[k].kind == spawned[idx[k]].kind
           && (spawned[idx[k]].damaged ==> r[k].damaged)
           && (spawned[idx[k]].passed ==> r[k].passed)
  {
    var p2 := SpawnPhase(PlayerPhase(s), d);
    assert p2.obstacles[..|s.obstacles|] == s.obstacles;
    idx := AdvanceSelects(p2.obstacles);
    LaterPhasesKeepFlags(ObstaclePhase(p2));
  }
}

=== FILE: game.dfy ===
/** The game state and its transitions: one frame of the loop (`update`),
    the activate input (`handleStartAndJump` with `startGame`,
    `restartGame` and `pg.jump`), and the invariant every reachable state
    keeps. Every Math.random() draw of a frame is a field of `Draws`. */
module Game {
  import opened Common
  import opened Sprites
  import opened HealthBar
  import opened PlayerEntity
  import opened Obstacles
  import opened Collisions

  const BaseGravity: real := 0.5
  const InitialSpeed: real := 10.0
  const SpeedStep: real := 0.25
  /** Distance between two speed thresholds, and the first threshold. */
  const Milestone: int := 10

  datatype GameState = GameState(
    player: Player,
    gravity: real,
    visibleHp: real,
    sprite: Anim,
    speed: real,
    nextSpeedIncrement: int,
    distance: real,
    obstacles: seq<Obstacle>,
    lastObstacleX: int,
    obstacleCount: nat,
    passedObstacles: nat,
    gameOverState: bool,
    gameStarted: bool)

  /** The Math.random() results a frame may consume, in the order the game
      draws them: the spawn roll, then (only when an obstacle is created)
      the archetype, the position offset and the air height. */
  datatype Draws = Draws(spawn: real, kind: real, offset: real, height: real)

  predicate ValidDraws(d: Draws)
  {
    && 0.0 <= d.spawn < 1.0
    && 0.0 <= d.kind < 1.0
    && 0.0 <= d.offset < 1.0
    && 0.0 <= d.height < 1.0
  }

  /** The state as the page loads: welcome screen, nothing started. */
  const Initial: GameState :=
    GameState(Fresh, BaseGravity, MaxHp as real, Still, InitialSpeed, Milestone, 0.0, [], 0, 0, 0, false, false)

  /** Gravity as a function of the running speed. */
  function GravityFor(speed: real): (g: real)
    ensures 0.0 <= speed <= MaxSpeed ==> BaseGravity <= g <= BaseGravity + MaxSpeed / 35.0
  {
    BaseGravity + speed / 35.0
  }

  /** Per-frame spawn probability: min(0.005 + distance / 250, 0.5). */
  function SpawnChance(distance: real): (p: real)
    ensures distance >= 0.0 ==> 0.005 <= p <= 0.5
    ensures p == 0.5 <==> distance >= 123.75
  {
    MinR(0.005 + distance / 250.0, 0.5)
  }

  /** The spawn probability ramps up with distance and never falls. */
  lemma SpawnChanceRamps(near: real, far: real)
    requires near <= far
    ensures SpawnChance(near) <= SpawnChance(far)
  {
  }

  /** `pg.update` followed by the non-drawing part of `pg.draw`: the run
      cycle ticks at the current speed (frozen while airborne) and the
      displayed health eases toward the true health. */
  function PlayerPhase(s: GameState): GameState
  {
    var p := Update(s.player, s.gravity);
    s.(player := p,
       sprite := Tick(s.sprite, s.speed, PlayerFrames, !p.jumping),
       visibleHp := Ease(s.visibleHp, s.player.hp as real, s.speed))
  }

  /** `createObstacle`: a new obstacle of the drawn archetype is appended at
      the spawn position, which becomes the new reference position. */
  function CreateObstacle(s: GameState, d: Draws): (r: GameState)
    requires ValidDraws(d)
    ensures |r.obstacles| == |s.obstacles| + 1 && r.obstacles[..|s.obstacles|] == s.obstacles
    ensures r.lastObstacleX >= s.lastObstacleX + MinDistance
    ensures r.lastObstacleX >= CanvasWidth + SpawnMargin
    ensures r.obstacles[|s.obstacles|].x == r.lastObstacleX as real
    ensures r.obstacles[|s.obstacles|].kind == Ground <==> d.kind < 0.5
    ensures WellFormed(r.obstacles[|s.obstacles|])
    ensures !r.obstacles[|s.obstacles|].passed && !r.obstacles[|s.obstacles|].damaged
    ensures r.obstacles[|s.obstacles|].speed == ObstacleSpeed
    ensures r.obstacleCount == s.obstacleCount + 1
    ensures r == s.(obstacles := r.obstacles, lastObstacleX := r.lastObstacleX, obstacleCount := r.obstacleCount)
  {
    var x := SpawnX(s.lastObstacleX, d.offset);
    var o := NewObstacle(PickKind(d.kind), x, d.height);
    assert (s.obstacles + [o])[..|s.obstacles|] == s.obstacles;
    s.(obstacles := s.obstacles + [o], lastObstacleX := x, obstacleCount := s.obstacleCount + 1)
  }

  function SpawnPhase(s: GameState, d: Draws): GameState
    requires ValidDraws(d)
  {
    if d.spawn < SpawnChance(s.distance) then CreateObstacle(s, d) else s
  }

  /** `updateObstacles` and the non-drawing part of `drawObstacles`. */
  function ObstaclePhase(s: GameState): GameState
  {
    s.(obstacles := AnimateAll(Advance(s.obstacles)))
  }

  /** `handleCollisions`, with `gameOver()`'s effect on the state. */
  function CollisionPhase(s: GameState): GameState
  {
    var out := Collide(PlayerCircle(s.player), s.obstacles, s.player.hp, s.gameOverState);
    s.(obstacles := out.obstacles, player := s.player.(hp := out.hp), gameOverState := out.gameOver)
  }

  /** Distance, the speed threshold and gravity. */
  function ProgressPhase(s: GameState): GameState
  {
    var distance := s.distance + s.speed / 100.0;
    var crossed := distance >= s.nextSpeedIncrement as real;
    var speed := if crossed then MinR(s.speed + SpeedStep, MaxSpeed) else s.speed;
    s.(distance := distance,
       speed := speed,
       nextSpeedIncrement := if crossed then s.nextSpeedIncrement + Milestone else s.nextSpeedIncrement,
       obstacles := if crossed then SetSpeed(s.obstacles, speed) else s.obstacles,
       gravity := GravityFor(speed))
  }

  /** Counting the obstacles passed this frame. */
  function PassPhase(s: GameState): GameState
  {
    var marked := MarkPassed(s.obstacles, s.player.x);
    s.(obstacles := marked.0, passedObstacles := s.passedObstacles + marked.1)
  }

  /** One frame of `update`. Once the game is over the frame does nothing;
      otherwise every phase runs, including those after a collision that
      ends the game in this very frame. */
  function Step(s: GameState, d: Draws): (r: GameState)
    requires ValidDraws(d)
    ensures s.gameOverState ==> r == s
    ensures !s.gameOverState ==> r.distance == s.distance + s.speed / 100.0
    ensures r.gameStarted == s.gameStarted
  {
    if s.gameOverState then s
    else PassPhase(ProgressPhase(CollisionPhase(ObstaclePhase(SpawnPhase(PlayerPhase(s), d)))))
  }

  /** `startGame`'s effect on the state (the audio restart is left out). */
  function Start(s: GameState): (r: GameState)
    ensures r.gameStarted
    ensures r.(gameStarted := s.gameStarted) == s
  {
    s.(gameStarted := true)
  }

  /** `restartGame`: the progression, obstacles, player position, velocity
      and health are those of a freshly loaded game; the airborne flag,
      the displayed health, the run-cycle sprite, gravity, the spawn
      counter and the started flag carry over. */
  function Restart(s: GameState): (r: GameState)
    ensures r == Initial.(player := Fresh.(jumping := s.player.jumping),
                          gravity := s.gravity,
                          visibleHp := s.visibleHp,
                          sprite := s.sprite,
                          obstacleCount := s.obstacleCount,
                          gameStarted := s.gameStarted)
  {
    s.(distance := 0.0,
       passedObstacles := 0,
       speed := InitialSpeed,
       nextSpeedIncrement := Milestone,
       player := s.player.(hp := MaxHp, y := GroundY, dy := 0.0, x := StartX),
       gameOverState := false,
       obstacles := [],
       lastObstacleX := 0)
  }

  /** `handleStartAndJump`: after a game over it restarts, before the first
      start it starts, otherwise it jumps. Starting and restarting run one
      frame of `update` straight away. */
  function Activate(s: GameState, d: Draws): (r: GameState)
    requires ValidDraws(d)
    ensures s.gameOverState ==> r == Step(Restart(s), d)
    ensures !s.gameOverState && !s.gameStarted ==> r == Step(Start(s), d)
    ensures !s.gameOverState && s.gameStarted ==> r == s.(player := Jump(s.player))
    ensures r.gameStarted == (s.gameStarted || !s.gameOverState)
  {
    if s.gameOverState then Step(Restart(s), d)
    else if !s.gameStarted then Step(Start(s), d)
    else s.(player := Jump(s.player))
  }

  /** Running speed after `k` threshold crossings. */
  function SpeedAfter(k: int): real
  {
    MinR(InitialSpeed + SpeedStep * k as real, MaxSpeed)
  }

  /** The progression fields agree with one another: the threshold is the
      next multiple of 10 above the distance, and the speed reflects one
      step per threshold already crossed. */
  predicate ProgressInv(s: GameState)
  {
    && s.nextSpeedIncrement >= Milestone
    && s.nextSpeedIncrement % Milestone == 0
    && s.speed == SpeedAfter(s.nextSpeedIncrement / Milestone - 1)
    && (s.nextSpeedIncrement - Milestone) as real <= s.distance < s.nextSpeedIncrement as real
  }

  /** What holds of every state the game can reach. */
  predicate Inv(s: GameState)
  {
    && s.player.x == StartX
    && s.player.y <= GroundY
    && 0 <= s.player.hp <= MaxHp
    && s.player.hp % Damage == 0
    && (s.player.hp == 0 <==> s.gameOverState)
    && (s.gameOverState ==> s.gameStarted)
    && (!s.gameStarted ==> s == Initial)
    && 0.0 <= s.visibleHp <= MaxHp as real
    && s.sprite.frame < PlayerFrames
    && BaseGravity <= s.gravity <= GravityFor(MaxSpeed)
    && ProgressInv(s)
    && ListInv(s.obstacles, s.lastObstacleX)
  }

  lemma InitialInv()
    ensures Inv(Initial)
  {
  }

  /** Starting a consistent game that is not over gives a consistent,
      started game. */
  lemma StartKeepsInv(s: GameState)
    requires Inv(s) && !s.gameOverState
    ensures Inv(Start(s)) && Start(s).gameStarted
  {
  }

  /** The running speed is exactly min(10 + 0.25 * floor(distance / 10), 20). */
  lemma SpeedFollowsDistance(s: GameState)
    requires ProgressInv(s)
    ensures s.speed == MinR(InitialSpeed + SpeedStep * (s.distance / 10.0).Floor as real, MaxSpeed)
    ensures InitialSpeed <= s.speed <= MaxSpeed
  {
    var k := s.nextSpeedIncrement / Milestone - 1;
    assert s.nextSpeedIncrement == Milestone * (k + 1);
    assert k as real <= s.distance / 10.0 < (k + 1) as real;
    assert (s.distance / 10.0).Floor == k;
  }

  /** One progression step keeps the progression fields consistent, and
      the speed moves up by at most one step, never past the cap. */
  lemma ProgressKeepsInv(s: GameState)
    requires ProgressInv(s)
    ensures ProgressInv(ProgressPhase(s))
    ensures s.speed <= ProgressPhase(s).speed <= MaxSpeed
    ensures ProgressPhase(s).speed <= s.speed + SpeedStep
  {
    SpeedFollowsDistance(s);
    var r := ProgressPhase(s);
    var k := s.nextSpeedIncrement / Milestone - 1;
    if r.nextSpeedIncrement != s.nextSpeedIncrement {
      assert r.nextSpeedIncrement / Milestone - 1 == k + 1;
      assert r.speed == SpeedAfter(k + 1);
    }
  }
}

=== FILE: health_bar.dfy ===
/** The player's health bar: a displayed value that eases toward the true
    health at a speed-dependent rate, a fill width proportional to it, and
    a four-band colour. */
module HealthBar {
  import opened Common

  const BarWidth: real := 300.0

  datatype Color = Green | Yellow | Orange | Red

  /** Health points the displayed value may move per drawn frame:
      min(1 + speed / 10, 2). */
  function Rate(speed: real): (t: real)
    ensures speed >= 0.0 ==> 1.0 <= t <= 2.0
  {
    MinR(1.0 + speed / 10.0, 2.0)
  }

  /** One drawn frame of easing `visible` toward `hp`. */
  function Ease(visible: real, hp: real, speed: real): (r: real)
    ensures speed >= 0.0 && visible <= hp ==> visible <= r <= hp
    ensures speed >= 0.0 && hp <= visible ==> hp <= r <= visible
    ensures speed >= 0.0 ==> AbsR(r - hp) == MaxR(0.0, AbsR(visible - hp) - Rate(speed))
  {
    var t := Rate(speed);
    if visible > hp then MaxR(hp, visible - t)
    else if visible < hp then MinR(hp, visible + t)
    else visible
  }

  /** `n` drawn frames of easing while the true health stays put. */
  function EaseN(visible: real, hp: real, speed: real, n: nat): real
    decreases n
  {
    if n == 0 then visible else EaseN(Ease(visible, hp, speed), hp, speed, n - 1)
  }

  /** The displayed health catches up with the true health, without
      overshooting, within |visible - hp| drawn frames. */
  lemma {:induction false} EaseSettles(visible: real, hp: real, speed: real, n: nat)
    requires speed >= 0.0
    requires n as real >= AbsR(visible - hp)
    ensures EaseN(visible, hp, speed, n) == hp
    decreases n
  {
    if n > 0 {
      var next := Ease(visible, hp, speed);
      assert AbsR(next - hp) <= MaxR(0.0, AbsR(visible - hp) - 1.0);
      EaseSettles(next, hp, speed, n - 1);
    }
  }

  /** Fill width of the bar, proportional to the displayed health. */
  function Fill(visible: real): (w: real)
    ensures 0.0 <= visible <= 100.0 ==> 0.0 <= w <= BarWidth
    ensures w == BarWidth <==> visible == 100.0
    ensures w == 0.0 <==> visible == 0.0
  {
    visible / 100.0 * BarWidth
  }

  /** Bar colour: above 70 green, above 50 yellow, above 30 orange, else red. */
  function BarColor(visible: real): Color
  {
    if visible > 70.0 then Green
    else if visible > 50.0 then Yellow
    else if visible > 30.0 then Orange
    else Red
  }

  function Severity(c: Color): nat
  {
    match c
    case Green => 0
    case Yellow => 1
    case Orange => 2
    case Red => 3
  }

  /** Less displayed health never shows a milder colour, and each band is
      reached exactly over its interval: green above 70, yellow in (50, 70],
      orange in (30, 50], red at 30 and below. */
  lemma BarColorBands(lower: real, higher: real)
    requires lower <= higher
    ensures Severity(BarColor(higher)) <= Severity(BarColor(lower))
    ensures BarColor(lower) == Green <==> lower > 70.0
    ensures BarColor(lower) == Yellow <==> 50.0 < lower <= 70.0
    ensures BarColor(lower) == Orange <==> 30.0 < lower <= 50.0
    ensures BarColor(lower) == Red <==> lower <= 30.0
  {
  }
}

=== FILE: obstacles.dfy ===
/** Obstacles: the two archetypes, spawning with a minimum gap, the
    per-frame leftward drift with culling, the per-obstacle flags and the
    invariants the live list keeps (well-formed geometry, spawn order,
    spacing). */
module Obstacles {
  import opened Common
  import opened Sprites

  /** Minimum horizontal distance between two consecutive spawns. */
  const MinDistance: int := 550
  /** New obstacles appear at least this far past the right edge. */
  const SpawnMargin: int := 150
  /** Spread of the random part of the spawn position. */
  const SpawnJitter: real := 300.0
  /** Height by which the raised air obstacle floats above the low one. */
  const AirLift: int := 80
  /** Fraction of an obstacle's speed it drifts left per frame. */
  const Drift: real := 0.6

  datatype Kind = Ground | Air

  datatype Hitbox = Hitbox(radius: real, offsetX: real, offsetY: real)

  datatype Obstacle = Obstacle(
    kind: Kind,
    x: real,
    y: real,
    width: int,
    height: int,
    speed: real,
    passed: bool,
    damaged: bool,
    hitbox: Hitbox,
    anim: Anim)

  function Width(k: Kind): int
  {
    match k
    case Ground => 160
    case Air => 130
  }

  function Height(k: Kind): int
  {
    match k
    case Ground => 80
    case Air => 100
  }

  function Frames(k: Kind): nat
  {
    match k
    case Ground => GroundFrames
    case Air => AirFrames
  }

  /** The archetype drawn from `obstacleTypes` by index floor(u * 2). */
  function PickKind(u: real): (k: Kind)
    requires 0.0 <= u < 1.0
    ensures k == Ground <==> u < 0.5
  {
    var index := (u * 2.0).Floor;
    if index == 0 then Ground else Air
  }

  /** floor(u * 300): the random part of the spawn position. */
  function SpawnOffset(u: real): (n: int)
    requires 0.0 <= u < 1.0
    ensures 0 <= n < 300
  {
    (u * SpawnJitter).Floor
  }

  /** Spawn position: at least MinDistance past the previous spawn and at
      least SpawnMargin past the right edge; it is the larger of the
      gap-respecting position and the randomised one. */
  function SpawnX(lastX: int, u: real): (x: int)
    requires 0.0 <= u < 1.0
    ensures x >= lastX + MinDistance
    ensures x >= CanvasWidth + SpawnMargin
    ensures x == lastX + MinDistance || x == CanvasWidth + SpawnOffset(u) + SpawnMargin
  {
    MaxI(lastX + MinDistance, CanvasWidth + SpawnOffset(u) + SpawnMargin)
  }

  /** Top edge of a new obstacle: ground obstacles stand on the bottom
      edge; air obstacles do so when the draw exceeds one half and float
      AirLift higher otherwise. */
  function SpawnY(k: Kind, u: real): (y: int)
    ensures k == Ground ==> y + Height(k) == CanvasHeight
    ensures k == Air ==> (y + Height(k) == CanvasHeight <==> u > 0.5)
    ensures k == Air ==> (y + Height(k) + AirLift == CanvasHeight <==> u <= 0.5)
  {
    match k
    case Ground => CanvasHeight - Height(k)
    case Air => if u > 0.5 then CanvasHeight - Height(k) else CanvasHeight - Height(k) - AirLift
  }

  /** The hitbox of a width x height sprite: the circle centred in the box
      and touching its two nearer sides. */
  function HitboxFor(width: int, height: int): (hb: Hitbox)
    requires width >= 0 && height >= 0
    ensures hb.offsetX * 2.0 == width as real && hb.offsetY * 2.0 == height as real
    ensures 0.0 <= hb.radius && hb.radius <= hb.offsetX && hb.radius <= hb.offsetY
    ensures hb.radius == hb.offsetX || hb.radius == hb.offsetY
  {
    Hitbox(MinI(width, height) as real / 2.0, width as real / 2.0, height as real / 2.0)
  }

  /** Allowed top edges per archetype. */
  predicate AtSpawnHeight(o: Obstacle)
  {
    match o.kind
    case Ground => o.y == (CanvasHeight - Height(Ground)) as real
    case Air => o.y == (CanvasHeight - Height(Air)) as real || o.y == (CanvasHeight - Height(Air) - AirLift) as real
  }

  /** What every live obstacle satisfies: archetype geometry, centred
      hitbox, a spawn height, a speed between the creation speed and the
      cap, and a sheet cell inside its sprite sheet. */
  predicate WellFormed(o: Obstacle)
  {
    && o.width == Width(o.kind)
    && o.height == Height(o.kind)
    && o.hitbox == HitboxFor(o.width, o.height)
    && AtSpawnHeight(o)
    && ObstacleSpeed <= o.speed <= MaxSpeed
    && o.anim.frame < Frames(o.kind)
  }

  /** `createObstacle`'s new record: not passed, not damaged, moving at the
      creation speed, sheet at its first cell. */
  function NewObstacle(k: Kind, x: int, heightRoll: real): (o: Obstacle)
    ensures WellFormed(o)
    ensures o.kind == k && o.x == x as real && o.y == SpawnY(k, heightRoll) as real
    ensures !o.passed && !o.damaged && o.speed == ObstacleSpeed && o.anim == Still
  {
    var w := Width(k);
    var h := Height(k);
    Obstacle(k, x as real, SpawnY(k, heightRoll) as real, w, h, ObstacleSpeed, false, false, HitboxFor(w, h), Still)
  }

  /** One frame of leftward drift at the obstacle's own speed. */
  function Move(o: Obstacle): Obstacle
  {
    o.(x := o.x - o.speed * Drift)
  }

  /** Still (partly) on screen: the right edge is right of x = 0. */
  predicate OnScreen(o: Obstacle)
  {
    o.x + o.width as real > 0.0
  }

  /** `updateObstacles`: every obstacle drifts, and only those still on
      screen afterwards are kept. */
  function Advance(obs: seq<Obstacle>): (r: seq<Obstacle>)
    ensures |r| <= |obs|
    ensures forall o :: o in r ==> OnScreen(o)
  {
    if |obs| == 0 then []
    else
      var m := Move(obs[0]);
      if OnScreen(m) then [m] + Advance(obs[1..]) else Advance(obs[1..])
  }

  /** The obstacle is still on screen after this frame's drift. */
  predicate Survives(o: Obstacle)
  {
    OnScreen(Move(o))
  }

  predicate Increasing(idx: seq<nat>)
  {
    forall k, l :: 0 <= k < l < |idx| ==> idx[k] < idx[l]
  }

  /** Positions in `s`, each moved one place to the right. */
  function ShiftUp(s: seq<nat>): (r: seq<nat>)
    ensures |r| == |s|
    ensures forall k :: 0 <= k < |r| ==> r[k] == s[k] + 1
  {
    seq(|s|, k requires 0 <= k < |s| => s[k] + 1)
  }

  /** `idx` picks, in increasing order, exactly the positions of `obs`
      whose drifted obstacle is on screen, and `r` holds those drifted
      obstacles. */
  predicate Selects(obs: seq<Obstacle>, r: seq<Obstacle>, idx: seq<nat>)
  {
    && |idx| == |r|
    && Increasing(idx)
    && (forall k :: 0 <= k < |idx| ==> idx[k] < |obs| && r[k] == Move(obs[idx[k]]))
    && (forall i :: 0 <= i < |obs| ==> (i in idx <==> Survives(obs[i])))
  }

  lemma ShiftIncreasing(s: seq<nat>)
    requires Increasing(s)
    ensures Increasing(ShiftUp(s))
  {
    var t := ShiftUp(s);
    forall k, l | 0 <= k < l < |t|
      ensures t[k] < t[l]
    {
      assert s[k] < s[l];
    }
  }

  /** Membership in a shifted selection is membership one place earlier. */
  lemma ShiftMembers(s: seq<nat>, i: int)
    requires 1 <= i
    ensures i in ShiftUp(s) <==> i - 1 in s
  {
    var t := ShiftUp(s);
    if i - 1 in s {
      var k :| 0 <= k < |s| && s[k] == i - 1;
      assert t[k] == i;
    }
  }

  /** A selection of the tail, shifted by one, selects the same obstacles
      among positions 1.. of the whole list. */
  lemma ShiftSelects(obs: seq<Obstacle>, r: seq<Obstacle>, tail: seq<nat>)
    requires |obs| > 0 && Selects(obs[1..], r, tail)
    ensures Increasing(ShiftUp(tail))
    ensures forall k :: 0 <= k < |tail| ==> 1 <= ShiftUp(tail)[k] < |obs| && r[k] == Move(obs[ShiftUp(tail)[k]])
    ensures forall i :: 1 <= i < |obs| ==> (i in ShiftUp(tail) <==> Survives(obs[i]))
    ensures 0 !in ShiftUp(tail)
  {
    var shifted := ShiftUp(tail);
    var rest := obs[1..];
    ShiftIncreasing(tail);
    forall k | 0 <= k < |shifted|
      ensures 1 <= shifted[k] < |obs| && r[k] == Move(obs[shifted[k]])
    {
      assert rest[tail[k]] == obs[tail[k] + 1];
    }
    forall i | 1 <= i < |obs|
      ensures i in shifted <==> Survives(obs[i])
    {
      assert rest[i - 1] == obs[i];
      ShiftMembers(tail, i);
    }
  }

  lemma ConsIncreasing(s: seq<nat>)
    requires Increasing(s)
    requires forall k :: 0 <= k < |s| ==> s[k] >= 1
    ensures Increasing([0] + s)
  {
    var t := [0] + s;
    forall k, l | 0 <= k < l < |t|
      ensures t[k] < t[l]
    {
      assert t[l] == s[l - 1];
      if k > 0 {
        assert t[k] == s[k - 1];
      }
    }
  }

  /** Putting a surviving front obstacle before a shifted selection keeps
      every selected position paired with its drifted obstacle. */
  lemma ConsPairs(obs: seq<Obstacle>, r: seq<Obstacle>, shifted: seq<nat>)
    requires |obs| > 0 && |r| == |shifted|
    requires forall k :: 0 <= k < |shifted| ==> 1 <= shifted[k] < |obs| && r[k] == Move(obs[shifted[k]])
    ensures forall k :: 0 <= k < |shifted| + 1 ==>
      ([0] + shifted)[k] < |obs| && ([Move(obs[0])] + r)[k] == Move(obs[([0] + shifted)[k]])
  {
    forall k | 0 <= k < |shifted| + 1
      ensures ([0] + shifted)[k] < |obs| && ([Move(obs[0])] + r)[k] == Move(obs[([0] + shifted)[k]])
    {
      if k > 0 {
        assert ([0] + shifted)[k] == shifted[k - 1];
        assert ([Move(obs[0])] + r)[k] == r[k - 1];
      }
    }
  }

  /** Putting a surviving front position before a shifted selection keeps
      membership exact. */
  lemma ConsMembers(obs: seq<Obstacle>, shifted: seq<nat>)
    requires |obs| > 0 && Survives(obs[0])
    requires forall i :: 1 <= i < |obs| ==> (i in shifted <==> Survives(obs[i]))
    ensures forall i :: 0 <= i < |obs| ==> (i in [0] + shifted <==> Survives(obs[i]))
  {
    forall i | 0 <= i < |obs|
      ensures i in [0] + shifted <==> Survives(obs[i])
    {
      if i > 0 {
        assert i in [0] + shifted <==> i in shifted;
      }
    }
  }

  /** The inductive step of AdvanceSelects when the front obstacle survives. */
  lemma SelectsKeptFront(obs: seq<Obstacle>, tail: seq<nat>)
    requires |obs| > 0 && Survives(obs[0])
    requires Selects(obs[1..], Advance(obs[1..]), tail)
    ensures Selects(obs, Advance(obs), [0] + ShiftUp(tail))
  {
    ShiftSelects(obs, Advance(obs[1..]), tail);
    var shifted := ShiftUp(tail);
    assert Advance(obs) == [Move(obs[0])] + Advance(obs[1..]);
    ConsPairs(obs, Advance(obs[1..]), shifted);
    ConsMembers(obs, shifted);
    ConsIncreasing(shifted);
  }

  /** The inductive step of AdvanceSelects when the front obstacle is culled. */
  lemma SelectsDroppedFront(obs: seq<Obstacle>, tail: seq<nat>)
    requires |obs| > 0 && !Survives(obs[0])
    requires Selects(obs[1..], Advance(obs[1..]), tail)
    ensures Selects(obs, Advance(obs), ShiftUp(tail))
  {
    ShiftSelects(obs, Advance(obs[1..]), tail);
    assert Advance(obs) == Advance(obs[1..]);
  }

  /** Advance keeps exactly the obstacles that are on screen after drifting,
      each moved by exactly speed * 0.6 with no other field changed, in
      their original order: `idx` lists the surviving original positions. */
  lemma {:induction false} AdvanceSelects(obs: seq<Obstacle>) returns (idx: seq<nat>)
    ensures Selects(obs, Advance(obs), idx)
  {
    if |obs| == 0 {
      idx := [];
    } else {
      var tail := AdvanceSelects(obs[1..]);
      if Survives(obs[0]) {
        SelectsKeptFront(obs, tail);
        idx := [0] + ShiftUp(tail);
      } else {
        SelectsDroppedFront(obs, tail);
        idx := ShiftUp(tail);
      }
    }
  }

  /** `a` was spawned before `b`: it is at least MinDistance to the left and
      at least as fast. */
  predicate Gap(a: Obstacle, b: Obstacle)
  {
    a.x + MinDistance as real <= b.x && b.speed <= a.speed
  }

  /** The live list is in spawn order, spaced by MinDistance. */
  predicate Spaced(obs: seq<Obstacle>)
  {
    forall i, j :: 0 <= i < j < |obs| ==> Gap(obs[i], obs[j])
  }

  /** Nothing lies to the right of the last spawn position. */
  predicate Behind(obs: seq<Obstacle>, lastX: int)
  {
    forall o :: o in obs ==> o.x <= lastX as real
  }

  /** The invariant of the live obstacle list. */
  predicate ListInv(obs: seq<Obstacle>, lastX: int)
  {
    (forall o :: o in obs ==> WellFormed(o)) && Spaced(obs) && Behind(obs, lastX)
  }

  /** Appending a fresh spawn keeps the list invariant, with the spawn as
      the new reference position. */
  lemma SpawnKeepsListInv(obs: seq<Obstacle>, lastX: int, o: Obstacle)
    requires ListInv(obs, lastX)
    requires WellFormed(o) && o.speed == ObstacleSpeed
    requires o.x >= (lastX + MinDistance) as real && o.x.Floor as real == o.x
    ensures ListInv(obs + [o], o.x.Floor)
  {
    var r := obs + [o];
    forall i, j | 0 <= i < j < |r|
      ensures Gap(r[i], r[j])
    {
      if j == |obs| {
        assert r[i] in obs;
      } else {
        assert Gap(obs[i], obs[j]);
      }
    }
  }

  /** Drifting and culling keep the list invariant. */
  lemma AdvanceKeepsListInv(obs: seq<Obstacle>, lastX: int)
    requires ListInv(obs, lastX)
    ensures ListInv(Advance(obs), lastX)
  {
    var r := Advance(obs);
    var idx := AdvanceSelects(obs);
    forall k | 0 <= k < |r|
      ensures WellFormed(r[k]) && r[k].x <= lastX as real
    {
      assert obs[idx[k]] in obs;
    }
    forall k, l | 0 <= k < l < |r|
      ensures Gap(r[k], r[l])
    {
      assert Gap(obs[idx[k]], obs[idx[l]]);
    }
  }

  /** `b` is `a` with positions and speeds untouched (other flags may differ). */
  predicate SameTrack(a: seq<Obstacle>, b: seq<Obstacle>)
  {
    && |a| == |b|
    && forall i :: 0 <= i < |a| ==> b[i].x == a[i].x && b[i].speed == a[i].speed
  }

  lemma TrackKeepsOrder(a: seq<Obstacle>, b: seq<Obstacle>, lastX: int)
    requires SameTrack(a, b) && Spaced(a) && Behind(a, lastX)
    ensures Spaced(b) && Behind(b, lastX)
  {
    forall i, j | 0 <= i < j < |b|
      ensures Gap(b[i], b[j])
    {
      assert Gap(a[i], a[j]);
    }
    forall o | o in b
      ensures o.x <= lastX as real
    {
      var i :| 0 <= i < |b| && b[i] == o;
      assert a[i] in a;
    }
  }

  /** Changing only the `passed` and `damaged` flags keeps the list invariant. */
  lemma FlagsKeepListInv(a: seq<Obstacle>, b: seq<Obstacle>, lastX: int)
    requires ListInv(a, lastX)
    requires |a| == |b|
    requires forall i :: 0 <= i < |a| ==> b[i] == a[i].(passed := b[i].passed, damaged := b[i].damaged)
    ensures ListInv(b, lastX)
  {
    TrackKeepsOrder(a, b, lastX);
    forall o | o in b
      ensures WellFormed(o)
    {
      var i :| 0 <= i < |b| && b[i] == o;
      assert a[i] in a;
    }
  }

  /** The sprite-sheet step each obstacle takes when drawn: its own speed
      sets the cadence, and the sheet size is the archetype's. */
  function AnimateAll(obs: seq<Obstacle>): (r: seq<Obstacle>)
    ensures SameTrack(obs, r)
    ensures forall i :: 0 <= i < |r| ==> r[i] == obs[i].(anim := r[i].anim)
    ensures forall i :: 0 <= i < |r| && WellFormed(obs[i]) ==> WellFormed(r[i])
  {
    seq(|obs|, i requires 0 <= i < |obs| => obs[i].(anim := Tick(obs[i].anim, obs[i].speed, Frames(obs[i].kind), true)))
  }

  /** Drawing keeps the list invariant. */
  lemma AnimateKeepsListInv(obs: seq<Obstacle>, lastX: int)
    requires ListInv(obs, lastX)
    ensures ListInv(AnimateAll(obs), lastX)
  {
    var r := AnimateAll(obs);
    TrackKeepsOrder(obs, r, lastX);
    forall o | o in r
      ensures WellFormed(o)
    {
      var i :| 0 <= i < |r| && r[i] == o;
      assert obs[i] in obs;
    }
  }

  /** The same drawn-frame step seen through the sheet cells. */
  lemma AnimateAllCycles(obs: seq<Obstacle>, i: int)
    requires 0 <= i < |obs|
    ensures AnimateAll(obs)[i].anim.counter < FrameInterval(obs[i].speed)
    ensures AnimateAll(obs)[i].anim.frame == obs[i].anim.frame
         || AnimateAll(obs)[i].anim.frame == (obs[i].anim.frame + 1) % Frames(obs[i].kind)
    ensures obs[i].anim.counter + 1 >= FrameInterval(obs[i].speed)
        ==> AnimateAll(obs)[i].anim == Anim((obs[i].anim.frame + 1) % Frames(obs[i].kind), 0)
    ensures obs[i].anim.counter + 1 < FrameInterval(obs[i].speed)
        ==> AnimateAll(obs)[i].anim == Anim(obs[i].anim.frame, obs[i].anim.counter + 1)
  {
  }

  /** Number of obstacles whose `passed` flag is set. */
  function PassedCount(obs: seq<Obstacle>): nat
  {
    if |obs| == 0 then 0 else (if obs[0].passed then 1 else 0) + PassedCount(obs[1..])
  }

  predicate PassesNow(o: Obstacle, px: real)
  {
    o.x + o.width as real < px && !o.passed
  }

  /** The pass-counting loop of `update`: an obstacle whose right edge is
      left of `px` gets its `passed` flag, which never clears; the counter
      returned is the number of flags that flipped. */
  function MarkPassed(obs: seq<Obstacle>, px: real): (r: (seq<Obstacle>, nat))
    ensures |r.0| == |obs|
    ensures forall i :: 0 <= i < |obs| ==> r.0[i] == obs[i].(passed := obs[i].passed || PassesNow(obs[i], px))
    ensures r.1 == PassedCount(r.0) - PassedCount(obs)
    ensures PassedCount(obs) <= PassedCount(r.0)
  {
    if |obs| == 0 then (obs, 0)
    else
      var o := obs[0];
      var rest := MarkPassed(obs[1..], px);
      var head := if PassesNow(o, px) then o.(passed := true) else o;
      assert ([head] + rest.0)[1..] == rest.0;
      ([head] + rest.0, rest.1 + (if PassesNow(o, px) then 1 else 0))
  }

  /** Every obstacle takes the given speed (after a threshold crossing). */
  function SetSpeed(obs: seq<Obstacle>, v: real): (r: seq<Obstacle>)
    ensures |r| == |obs|
    ensures forall i :: 0 <= i < |r| ==> r[i] == obs[i].(speed := v)
  {
    seq(|obs|, i requires 0 <= i < |obs| => obs[i].(speed := v))
  }

  /** Raising every obstacle to one common speed within the creation speed
      and the cap keeps the list invariant. */
  lemma SetSpeedKeepsListInv(obs: seq<Obstacle>, lastX: int, v: real)
    requires ListInv(obs, lastX)
    requires ObstacleSpeed <= v <= MaxSpeed
    ensures ListInv(SetSpeed(obs, v), lastX)
  {
    var r := SetSpeed(obs, v);
    forall o | o in r
      ensures WellFormed(o) && o.x <= lastX as real
    {
      var i :| 0 <= i < |r| && r[i] == o;
      assert obs[i] in obs;
    }
    forall i, j | 0 <= i < j < |r|
      ensures Gap(r[i], r[j])
    {
      assert Gap(obs[i], obs[j]);
    }
  }
}

=== FILE: player.dfy ===
/** The player character `pg`: fixed horizontal position, vertical
    kinematics under gravity, a single-impulse jump and the health points
    that collisions take away. The `isJumping` flag, a global in the game,
    is kept here as `jumping`. */
module PlayerEntity {
  import opened Common

  const StartX: real := 50.0
  /** Top edge of a player standing on the ground: 720 - 75. */
  const GroundY: real := 645.0
  const JumpHeight: real := 20.0
  const MaxHp: int := 100

  /** The sprite box the player is drawn in. */
  const SpriteWidth: real := 150.0
  const SpriteHeight: real := 75.0

  /** The circular hitbox, relative to the sprite's top-left corner. */
  const HitRadius: real := 35.0
  const HitOffsetX: real := 75.0
  const HitOffsetY: real := 37.5

  datatype Player = Player(x: real, y: real, dy: real, hp: int, jumping: bool)

  /** The player as the game loads it. */
  const Fresh: Player := Player(StartX, GroundY, 0.0, MaxHp, false)

  predicate OnGround(p: Player)
  {
    p.y == GroundY && p.dy == 0.0 && !p.jumping
  }

  /** `pg.jump`: only a player that is not already airborne gets the upward
      impulse; nothing but the velocity and the airborne flag changes. */
  function Jump(p: Player): (r: Player)
    ensures r.jumping
    ensures r.x == p.x && r.y == p.y && r.hp == p.hp
    ensures p.jumping ==> r == p
    ensures !p.jumping ==> r.dy == -JumpHeight
  {
    if !p.jumping then p.(dy := -JumpHeight, jumping := true) else p
  }

  /** Jumping again before landing changes nothing. */
  lemma JumpIdempotent(p: Player)
    ensures Jump(Jump(p)) == Jump(p)
  {
  }

  /** `pg.update`: one Euler step. Above the ground line the velocity grows
      by `gravity`; on reaching or passing it the player is snapped back,
      stopped and no longer airborne. */
  function Update(p: Player, gravity: real): (r: Player)
    ensures r.y <= GroundY
    ensures r.x == p.x && r.hp == p.hp
    ensures p.y + p.dy < GroundY ==> r.y == p.y + p.dy && r.dy == p.dy + gravity && r.jumping == p.jumping
    ensures p.y + p.dy >= GroundY ==> OnGround(r)
  {
    var y := p.y + p.dy;
    if y < GroundY then p.(y := y, dy := p.dy + gravity)
    else p.(y := GroundY, dy := 0.0, jumping := false)
  }

  /** A player standing on the ground stays there, frame after frame. */
  lemma GroundIsStable(p: Player, gravity: real)
    requires OnGround(p)
    ensures Update(p, gravity) == p
  {
  }

  /** A jump from the ground lifts the player by exactly the impulse in the
      next frame and leaves them airborne, falling back with `gravity`. */
  lemma JumpLeavesGround(p: Player, gravity: real)
    requires OnGround(p)
    ensures Update(Jump(p), gravity).y == GroundY - JumpHeight
    ensures Update(Jump(p), gravity).dy == gravity - JumpHeight
    ensures Update(Jump(p), gravity).jumping
  {
  }
}

=== FILE: sprites.dfy ===
/** Sprite-sheet frame cycling shared by the player (4 frames), the air
    obstacle (9 frames) and the ground obstacle (12 frames): a counter is
    bumped every drawn frame and, once it reaches an interval that shrinks
    as the game speeds up, the sheet advances one cell and the counter
    restarts. */
module Sprites {
  import opened Common

  /** frameSpeed, flyingObstaclesFrameSpeed and runningObstaclesFrameSpeed. */
  const BaseFrameSpeed: int := 10

  const PlayerFrames: nat := 4
  const AirFrames: nat := 9
  const GroundFrames: nat := 12

  datatype Anim = Anim(frame: nat, counter: nat)

  /** A sheet that has not started cycling yet. */
  const Still: Anim := Anim(0, 0)

  /** Drawn frames between two cells: max(1, 10 - floor(speed / 3)). */
  function FrameInterval(speed: real): (n: int)
    ensures 1 <= n
    ensures speed >= 0.0 ==> n <= BaseFrameSpeed
  {
    MaxI(1, BaseFrameSpeed - (speed / 3.0).Floor)
  }

  /** A faster game never animates more slowly. */
  lemma FrameIntervalShrinks(slow: real, fast: real)
    requires slow <= fast
    ensures FrameInterval(fast) <= FrameInterval(slow)
  {
    assert (slow / 3.0).Floor <= (fast / 3.0).Floor;
  }

  /** Over the whole range of running speeds the interval stays in 4..7. */
  lemma FrameIntervalAtRunningSpeeds(speed: real)
    requires 10.0 <= speed <= MaxSpeed
    ensures 4 <= FrameInterval(speed) <= 7
  {
    assert 3 <= (speed / 3.0).Floor <= 6;
  }

  /** One drawn frame: the counter is bumped and, on reaching the interval,
      the sheet advances (only when `advance`; the player's run cycle is
      frozen while jumping) and the counter restarts. */
  function Tick(a: Anim, speed: real, frames: nat, advance: bool): (r: Anim)
    requires frames > 0
    ensures r.counter < FrameInterval(speed)
    ensures a.frame < frames ==> r.frame < frames
    ensures r.counter == a.counter + 1 ==> r.frame == a.frame
    ensures r.counter != a.counter + 1 ==> r.counter == 0 && a.counter + 1 >= FrameInterval(speed)
    ensures r.frame != a.frame ==> advance && r.frame == (a.frame + 1) % frames
    ensures a.counter + 1 >= FrameInterval(speed) && advance ==> r.frame == (a.frame + 1) % frames
  {
    var counter := a.counter + 1;
    if counter >= FrameInterval(speed) then
      Anim(if advance then (a.frame + 1) % frames else a.frame, 0)
    else
      Anim(a.frame, counter)
  }

  /** `n` drawn frames at a constant speed. */
  function Ticks(a: Anim, speed: real, frames: nat, advance: bool, n: nat): Anim
    requires frames > 0
  {
    if n == 0 then a else Tick(Ticks(a, speed, frames, advance, n - 1), speed, frames, advance)
  }

  lemma {:induction false} TicksBelowInterval(a: Anim, speed: real, frames: nat, advance: bool, j: nat)
    requires frames > 0 && a.counter == 0
    requires j < FrameInterval(speed)
    ensures Ticks(a, speed, frames, advance, j) == Anim(a.frame, j)
  {
    if j > 0 {
      TicksBelowInterval(a, speed, frames, advance, j - 1);
    }
  }

  /** Starting from a fresh counter, exactly FrameInterval(speed) drawn
      frames move the sheet one cell forward (wrapping round) and restart
      the counter. */
  lemma {:induction false} TickCycle(a: Anim, speed: real, frames: nat)
    requires frames > 0 && a.counter == 0
    ensures Ticks(a, speed, frames, true, FrameInterval(speed)) == Anim((a.frame + 1) % frames, 0)
  {
    var n := FrameInterval(speed);
    TicksBelowInterval(a, speed, frames, true, n - 1);
  }
}
